=== FILE: README.md ===
# DotPrep core in Dafny

This project models the pure logic of `DotPrep.py`, the preparation script behind the Dot plot viewer. The script reads a nucmer delta file. It decides which alignments of each query are "unique anchors" and tags every alignment unique or repetitive. It then writes a coordinates table, a filtered delta file, assembly statistics and the index files the viewer loads. The model covers the following parts.

- **`binary_search`.** The recursive search over the sorted left ends of the unique intervals (`BinarySearch`).
- **`summarize_planesweep`.** Each alignment of a query becomes a start and a stop event. The events are stably sorted by position, and a sweep records the stretches covered by exactly one alignment. An alignment is kept when the recorded length lying inside it reaches the threshold, or, with small uniques kept, when a recorded stretch is exactly the alignment (`Events`, `PlaneSweep`).
- **The first pass, `getQueryRefCombinations`.** It groups each query's alignments as ordered `(min, max)` intervals, together with the header line each one was read under. `decideAlignmentsToKeep` maps the plane sweep over these groups (`Delta`).
- **The second pass, `filterAlignments`.** It counts each query's alignments, tags the k-th unique when k is in the query's keep list, and builds the coordinates rows. It also records which lines are copied to the filtered delta file and collects the first-seen reference and query lengths (`Filtering`). `Pipeline` composes the two passes as `run` does. It proves that the second pass never fails on a file whose alignments all follow a header. It also proves that the tag of every alignment is exactly the plane-sweep decision for its position in its query's group.
- **`intWithCommas` and `N50`** (`Format`).
- **The arithmetic of `index_for_dot`** (`DotIndex`). This covers the distinct references with their first-seen lengths, the cumulative reference offsets, and the per-query orientation vote. It also covers the coordinate flip `p -> query_length - p` applied to flipped queries.

Delta files are given as their body lines, already split into fields:
- a `>` line is a `Header` with its four fields;
- a line with more than four fields is an `Alignment`;
- anything else is `Other`.

The source's failures are modelled as error results:
- a `KeyError` on a missing dictionary key;
- an `IndexError` on an out-of-range keep index;
- `UnboundQuery` for an alignment before any header, where Python would raise `NameError`.

Python 2 floor division with a positive divisor is Dafny's `/`. Integers are unbounded, as Python's are.

## Model

| member | source | states |
|---|---|---|
| BinarySearch.Search | DotPrep.py:344-357 | On a non-empty range the result lies in `[left, right]`. On an empty range it is `right`. A result inside the range holds `query` or an element larger than it. |
| BinarySearch.SearchBelow | DotPrep.py:344-357 | On a sorted list every element before the result is smaller than `query`, unless the result itself holds `query`. |
| BinarySearch.SearchSpec | DotPrep.py:344-357 | On a sorted list, if `query` occurs in `numbers[left:right]` the result is an index holding it. Otherwise the result is the insertion point: everything before it is smaller and everything from it to `right` is larger. |
| BinarySearch.SearchPastEnd | DotPrep.py:344-357 | The search returns `right` only when every element of the range is smaller than `query`. |
| Events.Insert | DotPrep.py:302 | Inserting one event adds exactly that event: the length grows by one, the multiset gains it, and membership is the old members plus it. |
| Events.SortByPosition | DotPrep.py:302 | The sort is a permutation of its input, sorted by position, with the same net coverage. |
| Events.SortIsStable | DotPrep.py:302 | For every position, the events at that position appear in the sorted sequence in exactly their input order. |
| Events.SortLast | DotPrep.py:302 | The last sorted event is the last input event among those at the largest position. |
| PlaneSweep.StartsAndStopsBalanced | DotPrep.py:296-299 | One start and one stop per line, so the coverage over all events returns to zero. |
| PlaneSweep.StartsAndStopsContain | DotPrep.py:296-299 | Every line's start event and stop event are among the events. |
| PlaneSweep.StartsAndStops | DotPrep.py:296-299 | Two events per line. StartsAndStopsBalanced and StartsAndStopsContain state that they are each line's start and stop and that the coverage returns to zero. |
| PlaneSweep.Sweep | DotPrep.py:304-317 | The sweep always records as many left ends as right ends. |
| PlaneSweep.Step | DotPrep.py:309-317 | One event of the sweep. SweepCounts, SweepRecordsAt and SweepRecordsOnly state what the sweep records over all events. |
| PlaneSweep.SweepCounts | DotPrep.py:304-317 | The running coverage is starts minus stops. One interval is recorded per event met at coverage exactly one. The last position is that of the last event. |
| PlaneSweep.SweepRecordsAt | DotPrep.py:308-317 | When the coverage before event j is one, j is not the first event, and the interval recorded at that point (numbered by how many earlier events met coverage one) runs from the previous event's position to event j's position. |
| PlaneSweep.SweepRecordsOnly | DotPrep.py:308-317 | Every recorded interval was recorded at some event met at coverage one. |
| PlaneSweep.SweepOrdered | DotPrep.py:304-317 | On position-sorted events each recorded interval has `left <= right`. The intervals do not overlap, lie at or after the first event, and end at or before the last position seen. |
| PlaneSweep.OrderedLeftsSorted | DotPrep.py:306-311 | The recorded left ends are non-decreasing, as the binary search over them requires. |
| PlaneSweep.LastAtMaximumIsStop | DotPrep.py:296-299 | With every line in order, the last input event at the largest position is a stop. |
| PlaneSweep.LastEventIsStop | DotPrep.py:296-302 | With every line in order, the last event in stable sorted order is a stop. |
| PlaneSweep.SweepEndsWithInterval | DotPrep.py:308-317 | For balanced events ending in a stop, the sweep's last recorded interval runs from the second-to-last to the last event position. |
| PlaneSweep.LastInterval | DotPrep.py:296-317 | For one or more lines in order, at least one interval is recorded, and the last runs from the second-to-last to the last sorted event position. |
| PlaneSweep.SweepRecordsSomething | DotPrep.py:296-317 | With two or more lines at least one interval is recorded, and their number is the number of events met at coverage one. |
| PlaneSweep.UniqueIntervalsOrdered | DotPrep.py:302-317 | The recorded intervals of any lines are ordered and disjoint, and their left ends are sorted. |
| PlaneSweep.UniqueIntervals | DotPrep.py:296-317 | The sweep over the sorted events of the lines. UniqueIntervalsOrdered states that its intervals are ordered and disjoint with sorted left ends. |
| PlaneSweep.StartAtMostLastLeft | DotPrep.py:321-323 | No line starts after the left end of the last recorded interval. |
| PlaneSweep.LeftBelowLastFound | DotPrep.py:323 | A search for a value not above the last left end returns an index inside the recorded intervals. |
| PlaneSweep.SearchInBounds | DotPrep.py:323-326 | For lines in order, the index read in the exact-match test is always in range, so that read never raises. |
| PlaneSweep.ScanUniqueLength | DotPrep.py:328-331 | The scan's sum is the summed length of the consecutive intervals from the start index that lie within `[query_min, query_max]`. Every scanned interval lies within it, and the scan stops at the end or at the first interval outside. |
| PlaneSweep.UniqueSum | DotPrep.py:328-331 | The unique length credited to an alignment. ScanUniqueLength proves the source's loop computes it, and UniqueSumBounds bounds it by the alignment's length. |
| PlaneSweep.UniqueSumBounds | DotPrep.py:328-331 | On ordered intervals the credited unique length is never negative and never exceeds the alignment's own length. |
| PlaneSweep.KeepsLine | DotPrep.py:323-336 | The decision for one alignment. KeptFrom and Summarize state that an index is kept iff this decision holds. |
| PlaneSweep.KeptFrom | DotPrep.py:320-338 | The kept indices are strictly increasing and in range. An index is kept iff its line meets the unique-length test or the small-unique exact-match test. |
| PlaneSweep.Summarize | DotPrep.py:281-340 | No alignment gives `[]`. One alignment gives `[0]` iff small uniques are kept or its length reaches the threshold, and `[]` otherwise. The result is strictly increasing and in range. With two or more alignments, index k is present iff the sweep's decision keeps line k. |
| PlaneSweep.ShortAlignmentKeptOnlyIfExact | DotPrep.py:325-336 | A kept alignment shorter than the threshold implies small uniques are kept and a recorded interval equals the alignment exactly. |
| Delta.Normalize | DotPrep.py:205-207 | The interval is `(min, max)` of the query ends: ordered, with length equal to the distance between the ends. |
| Delta.HeadersOf | DotPrep.py:208-209 | Each query has as many recorded header lines as recorded intervals. |
| Delta.CurrentQueryIsHeaderQuery | DotPrep.py:193-201 | Once a header has been read, the current query is one of the queries named by headers. |
| Delta.NoIntervalsWithoutHeader | DotPrep.py:198-208 | When every alignment follows a header, a query no header names has no intervals. |
| Delta.HeaderStep | DotPrep.py:193-201 | A header line never fails. Afterwards the grouping describes the longer prefix: the current query and header are the new ones, and a new query gets empty lists. |
| Delta.AlignmentStep | DotPrep.py:203-209 | An alignment line succeeds iff some header was read before it. It then appends the normalised interval and the header in force to the current query's lists. |
| Delta.AlignmentStepError | DotPrep.py:182-208 | An alignment line before any header fails with `KeyError` on the empty query name. |
| Delta.OtherStep | DotPrep.py:203-204 | A line with four or fewer fields changes nothing. |
| Delta.GroupSpec | DotPrep.py:182-209 | The first pass succeeds iff every alignment line follows some header. When it fails, the error is `KeyError` on the empty query name. On success its maps have exactly the header-named queries as keys. Each query maps to the normalised intervals of its alignments in file order, and to the header each was read under. |
| Delta.Group | DotPrep.py:192-209 | The first pass over all lines. Its meaning is stated by GroupSpec: success iff every alignment follows a header, and otherwise `KeyError` on the empty name. On success the maps hold exactly the header-named queries, each with its normalised intervals and headers in file order. |
| Delta.GroupStep | DotPrep.py:193-209 | One line of the first pass. HeaderStep, AlignmentStep, AlignmentStepError and OtherStep state its effect for each kind of line. |
| Delta.DecideAlignmentsToKeep | DotPrep.py:217-241 | Every grouped query gets a keep list: strictly increasing indices into that query's own intervals. |
| Filtering.CsvName | DotPrep.py:100 | The name written to the CSV has the same length as the original. Every comma becomes `_`, every other character is kept, and no comma is left. |
| Filtering.FilterHeaderStep | DotPrep.py:54-82 | A header line succeeds iff its query has a keep list and every keep index is a valid index into that query's header list. When the keep list is non-empty, the query must also have a header list. Afterwards the state tracks the longer prefix: keep list, alignment counter and last header. |
| Filtering.FilterAlignmentStep | DotPrep.py:84-101 | An alignment line succeeds iff some header was read before it. Afterwards its query's counter has grown by one. `keep_printing` becomes whether the ordinal was in the keep list. |
| Filtering.FilterOtherStep | DotPrep.py:103-104 | Any other line always succeeds and keeps the tracked state. |
| Filtering.FilterSpec | DotPrep.py:52-104 | The second pass succeeds iff every alignment follows a header and every header's lookups succeed. On success each query's counter equals its number of alignments so far. The keep list is the current query's, and `keep_printing` reflects the latest alignment. |
| Filtering.Filter | DotPrep.py:52-104 | The second pass over all lines. Its meaning is stated by FilterSpec (success conditions and counters), FilterRows (one tagged row per alignment), FilterWritten (which lines are copied) and FilterRefLengths/FilterQueryLengths (first-seen lengths). |
| Filtering.FilterStep | DotPrep.py:53-104 | One line of the second pass. FilterHeaderStep, FilterAlignmentStep and FilterOtherStep state its effect for each kind of line. |
| Filtering.FilterRows | DotPrep.py:84-101 | There is one coordinates row per alignment line, in file order. The row of an alignment carries its coordinates and the sizes and names of the header in force. Its tag is unique iff the alignment's ordinal within its query is in the query's keep list. |
| Filtering.FilterWrittenOrdered | DotPrep.py:52-104 | The lines copied to the filtered delta file are listed in strictly increasing line order. |
| Filtering.FilterWritten | DotPrep.py:58-104 | A line is copied iff one of these holds: it is a header under which some kept alignment of its query was recorded; it is a unique alignment; or it is another line following a unique alignment. |
| Filtering.FilterRefSeen | DotPrep.py:77-79 | The set of references seen is the set of reference names in headers, and one length is recorded per distinct reference. |
| Filtering.FilterRefLengths | DotPrep.py:77-79 | The recorded reference lengths are exactly one length per distinct reference, in first-seen order: the length given by the first header naming that reference. |
| Filtering.FilterQuerySeen | DotPrep.py:80-82 | The set of queries seen is the set of query names in headers, and one length is recorded per distinct query. |
| Filtering.FilterQueryLengths | DotPrep.py:80-82 | The recorded query lengths are exactly one length per distinct query, in first-seen order: the length given by the first header naming that query. |
| Filtering.FirstRefLengths | DotPrep.py:77-79 | Reference definition: the length of the first header for each new reference name, in file order. FilterRefLengths proves that the second pass records exactly this. |
| Filtering.FirstQueryLengths | DotPrep.py:80-82 | Reference definition: the length of the first header for each new query name, in file order. FilterQueryLengths proves that the second pass records exactly this. |
| Pipeline.IntervalsWellFormed | DotPrep.py:205-208 | Every interval the first pass groups has its ends in order, as `summarize_planesweep` requires. |
| Pipeline.IntervalsOfPrefix | DotPrep.py:203-209 | Reading more lines only extends each query's interval and header lists. |
| Pipeline.OrdinalLocates | DotPrep.py:203-209 | The k-th alignment of a query in file order sits at index k of the query's group, as its normalised interval, next to the header it was read under. |
| Pipeline.OrdinalOnto | DotPrep.py:203-209 | Every index of a query's group comes from some alignment line of that query. |
| Pipeline.PipelineRuns | DotPrep.py:115-129 | On a file whose alignments all follow a header, the first pass succeeds and the second pass never fails with the keep lists and header lists of the first. |
| Pipeline.KeepListOf | DotPrep.py:231-232 | Each query's keep list is the plane sweep over its group. |
| Pipeline.KeepLists | DotPrep.py:121-123 | The keep lists of the composed passes. KeepListOf states that each query's list is the plane sweep over its group. |
| Pipeline.SingleAlignmentKept | DotPrep.py:290-294 | A query's only alignment is kept iff small uniques are kept or its length reaches the threshold. |
| Pipeline.PipelineTags | DotPrep.py:86-101 | An alignment's ordinal k indexes its normalised interval in its query's group. It is tagged unique iff k is kept. With two or more alignments this is iff the sweep's decision keeps the interval; with one, iff small uniques are kept or its length reaches the threshold. |
| Pipeline.PipelineSearchInBounds | DotPrep.py:321-326 | For every interval the first pass groups, the search index read by the exact-match test is in range. |
| Pipeline.HeaderListOf | DotPrep.py:198-209 | The header list the second pass consults is the first pass's list of headers, one per alignment. |
| Pipeline.NeededFromUnique | DotPrep.py:61-64 | A header under which a kept alignment of its query was read is needed. |
| Pipeline.UniqueFromNeeded | DotPrep.py:61-64 | A needed header has some kept alignment of its query read under an identical header. |
| Pipeline.PipelineHeaderWritten | DotPrep.py:58-66 | A header is copied to the filtered delta file iff some unique alignment of its query was read under an identical header. |
| Format.Decimal | DotPrep.py:278 | `%d` of a natural number is a non-empty string of digits with no leading zero; zero is written as the single digit `0`. |
| Format.DecimalValue | DotPrep.py:278 | Reading the decimal digits back gives the number. |
| Format.Pad3 | DotPrep.py:277 | `%03d` of a remainder below 1000 is exactly three digits, and reading them back gives the remainder. |
| Format.DecimalThousands | DotPrep.py:275-277 | The decimal of `a * 1000 + r` is the decimal of `a` followed by the three-digit `r`. |
| Format.GroupThousands | DotPrep.py:274-278 | The loop of repeated `divmod(x, 1000)` computes the grouped form of `x`. |
| Format.Grouped | DotPrep.py:274-278 | The grouped form of a natural number. GroupThousands proves the source's loop computes it, StripGrouped that removing commas gives the decimal, and GroupedShape its comma-and-three-digit layout. |
| Format.StripGrouped | DotPrep.py:274-278 | Removing the commas from the grouped form gives the plain decimal of `x`. |
| Format.GroupedShape | DotPrep.py:274-278 | The grouped form is one to three leading digits followed by groups of a comma and exactly three digits. |
| Format.CommasRoundTrip | DotPrep.py:269-278 | Parsing the result (sign, then digits with commas removed) gives back the input. |
| Format.CommasShape | DotPrep.py:272-278 | A negative input gives `-` followed by a well-grouped string; a non-negative one gives a well-grouped string. |
| Format.Commas | DotPrep.py:272-278 | The signed grouped form. CommasRoundTrip proves it parses back to the input, and CommasShape states its layout. |
| Format.IntWithCommas | DotPrep.py:269-278 | A non-integer raises `TypeError`; `int` and `long` succeed. The result is the grouped decimal of the input, and a negative input gives `-` followed by the result for its absolute value. Removing the commas gives the plain decimal, and the result parses back to the input. A value below 1000 gives its plain decimal. |
| Format.N50 | DotPrep.py:244-252 | A value is returned iff some suffix of the list sums to at least half the total. That value is the element at the largest such index, i.e. the first reached scanning from the end. A non-empty list of non-negative lengths always yields an element of the list. |
| DotIndex.DistinctReferences | DotPrep.py:380-384 | The references are listed without repetition, and their names are exactly the reference names of the rows. |
| DotIndex.DistinctReferencesFirstRows | DotPrep.py:380-384 | Each listed reference carries the length given by the first row naming it. |
| DotIndex.CumulativeOffsets | DotPrep.py:393-399 | Every listed name gets an offset. A listing that no later listing renames gets the summed lengths of the references before it. With distinct names, this holds for every reference. |
| DotIndex.OffsetsMeaning | DotPrep.py:393-399 | The dictionary after all listings has the listed names as keys. Each last listing's name maps to the summed lengths before it. |
| DotIndex.OffsetOfLastListing | DotPrep.py:396-398 | A listing not renamed by a later one keeps the running total assigned to it. |
| DotIndex.OffsetsIncrease | DotPrep.py:393-399 | Offsets never decrease along the reference order when lengths are non-negative, and strictly increase when lengths are positive. |
| DotIndex.DecideFlip | DotPrep.py:407-440 | A query is flipped iff the total length of its unique reverse alignments (`query_end < query_start`) exceeds the total of its unique forward ones. A query with no unique alignment is never flipped. |
| DotIndex.NoUniqueNoVotes | DotPrep.py:416-418 | A query whose rows are all repetitive has both totals zero. |
| DotIndex.RepetitiveAddsNothing | DotPrep.py:416-418 | Inserting a repetitive row anywhere in a query's rows changes neither total. |
| DotIndex.TotalsAppend | DotPrep.py:416-440 | Both totals of two concatenated lists of rows are the sums of their totals. |
| DotIndex.FlipCoordinate | DotPrep.py:485-486 | The flip measures a coordinate from the other end: flipping back recovers it, and a coordinate in `[0, query_length]` stays there. |
| DotIndex.OrientRow | DotPrep.py:484-486 | A flipped row has query start `L - start` and query end `L - end`, where `L` is the row's query length. Every other field of a row, flipped or not, is unchanged, and an unflipped row is unchanged entirely. A flipped row's direction is reversed for every non-zero-length alignment. |
| DotIndex.FlipInvolution | DotPrep.py:484-486 | Flipping a row twice restores it. |
| DotIndex.FlipInBounds | DotPrep.py:484-486 | Flipping keeps query coordinates that lie within the query inside it. |
| DotIndex.FlipSwapsTotals | DotPrep.py:416-440 | Flipping a query's rows swaps its forward and reverse totals. |
| DotIndex.OrientedStaysPut | DotPrep.py:416-440 | After orienting a query by its decision, the decision on the oriented rows would not flip it again. |
| DotIndex.RowsOfSelects | DotPrep.py:375-378 | Membership: each selected row is a table row naming the query, and each table row naming the query is selected. |
| DotIndex.RowsOfOrdinal | DotPrep.py:375-378 | Order and multiplicity: the table row at index k naming the query sits in the query's list at the position given by the number of earlier rows naming it. |
| DotIndex.RowsOfOnto | DotPrep.py:375-378 | Every position of the query's list is filled by some table row naming the query, the one with that many earlier rows naming it. |
| DotIndex.RowsOfOriented | DotPrep.py:481-486 | Selecting a query's rows commutes with orienting the table by fixed per-query decisions. |
| DotIndex.OrientTable | DotPrep.py:481-486 | The table with each row oriented by its query's decision; it has as many rows as the input. RowsOfOriented and OrientTableStable state its meaning per query. |
| DotIndex.OrientTableStable | DotPrep.py:407-486 | In the oriented table no query would be flipped again. |

## Left out

- File and gzip I/O, argparse, timing and progress prints are left out. Line splitting and the `int()` conversions of fields are also left out; files are given as already-parsed lines.
- The writers for the tab coordinates file, the filtered delta file, the stats file and the index files are not modelled. Their contents are given by the tracked rows, copied-line indices and lengths.
- Header lines are compared as their four fields rather than as stripped text. Two header lines differing only in spacing are identified here, unlike in the source. The empty header string that stands before the first header is the placeholder `Other`.
- `recordAssemblyStats` and `gig_meg` are left out: float division, `round`, and `np.mean`, `np.min` and `np.max`. Only `N50` and `intWithCommas` are modelled.
- When no suffix reaches half the sum, `N50` in the source returns `None`; the model returns `None` in an `Option`. The numpy 64-bit integer arithmetic of `sum` on a numpy array is left unmodelled; the sums are unbounded.
- `natural_key` (regex splitting and Python 2 mixed list comparison) is left out. `CumulativeOffsets` takes the reference order as given, so its contract holds for any order.
- The median reference position used to order queries (`np.median`, lines 447-452) is floating point and left out.
- The `alignment_length` column appended at line 488 and the sorts by it are left out. Line 487 assigns it only for rows of flipped queries. Every other row reuses the value last assigned by the orientation loop at line 423, which runs only for unique rows. When the coordinates table has rows but none of them is unique, neither line runs, and `index_for_dot` raises `UnboundLocalError` at line 488 on the first row.
- The 100000-row split of repetitive alignments into a separate file (lines 507-517) only routes output, and is left out.
- `references_by_query`, `queries_by_reference` and the `query_lengths` map of `index_for_dot` only feed the index files, and are left out.
- `DotIndex` works on the coordinates rows as read back, which already carry the comma-free names of `CsvName`. The text round trip through the CSV file is not modelled.
- The browser viewer (`js/Dot.js`, `js/InputPanel.js`, `app.js`) is rendering, DOM and glue code. The scale class that `js/Dot.js:35-36` instantiates is defined in none of `DotPrep.py`, `js/Dot.js`, `js/InputPanel.js` or `app.js`, so it is not modelled.
- `PlaneSweep.Summarize`: for two or more lines the exact-match test reads the interval at the search index only when that index is in range. The source reads it unguarded. `SearchInBounds` and `PipelineSearchInBounds` show the index is always in range for the ordered intervals the first pass produces. The model does not state the `IndexError` the source would raise for some unordered input, because no caller gives it one.

=== FILE: binary_search.dfy ===
/** The recursive `binary_search` helper of DotPrep.py. */
module BinarySearch {

  /** `s` is non-decreasing. */
  ghost predicate Sorted(s: seq<int>) {
    forall i, j :: 0 <= i < j < |s| ==> s[i] <= s[j]
  }

  /**
   * Searches `query` in `numbers[left..right]`. Returns the index of a matching
   * element, or, when there is none, the first index to the right of where it
   * would sit. Python 2 integer division on the non-negative bounds is floor
   * division, which is Dafny's `/` here.
   */
  function Search(query: int, numbers: seq<int>, left: nat, right: nat): (r: nat)
    requires right <= |numbers|
    ensures left <= right ==> left <= r <= right
    ensures left > right ==> r == right
    ensures r < right ==> numbers[r] == query || numbers[r] > query
    decreases right - left
  {
    if left >= right then right
    else
      var mid := (right + left) / 2;
      if query == numbers[mid] then mid
      else if query < numbers[mid] then Search(query, numbers, left, mid)
      else Search(query, numbers, mid + 1, right)
  }

  /** Everything before `r` in `numbers[left..]` is smaller than `query`, unless `r` holds `query`. */
  ghost predicate BelowResult(query: int, numbers: seq<int>, left: nat, right: nat, r: nat)
    requires r <= right <= |numbers|
  {
    forall j :: left <= j < r ==> numbers[j] < query || (numbers[j] == query && r < right && numbers[r] == query)
  }

  /** On a sorted list everything before the result is at most `query`, and smaller unless the result holds `query`. */
  lemma {:induction false} SearchBelow(query: int, numbers: seq<int>, left: nat, right: nat)
    requires left <= right <= |numbers|
    requires Sorted(numbers)
    ensures BelowResult(query, numbers, left, right, Search(query, numbers, left, right))
    decreases right - left, 1
  {
    if left < right {
      var mid := (right + left) / 2;
      if query < numbers[mid] {
        SearchBelowLower(query, numbers, left, right);
      } else if query > numbers[mid] {
        SearchBelowUpper(query, numbers, left, right);
      }
    }
  }

  /** The case where `query` is below the middle element: the search continues on the lower half. */
  lemma {:induction false} SearchBelowLower(query: int, numbers: seq<int>, left: nat, right: nat)
    requires left < right <= |numbers|
    requires Sorted(numbers)
    requires query < numbers[(right + left) / 2]
    ensures BelowResult(query, numbers, left, right, Search(query, numbers, left, right))
    decreases right - left, 0
  {
    var mid := (right + left) / 2;
    var r := Search(query, numbers, left, mid);
    assert Search(query, numbers, left, right) == r;
    SearchBelow(query, numbers, left, mid);
    assert BelowResult(query, numbers, left, mid, r);
  }

  /** The case where `query` is above the middle element: the search continues on the upper half. */
  lemma {:induction false} SearchBelowUpper(query: int, numbers: seq<int>, left: nat, right: nat)
    requires left < right <= |numbers|
    requires Sorted(numbers)
    requires query > numbers[(right + left) / 2]
    ensures BelowResult(query, numbers, left, right, Search(query, numbers, left, right))
    decreases right - left, 0
  {
    var mid := (right + left) / 2;
    var r := Search(query, numbers, mid + 1, right);
    assert Search(query, numbers, left, right) == r;
    SearchBelow(query, numbers, mid + 1, right);
    SmallerUpToMid(query, numbers, left, mid);
  }

  lemma SmallerUpToMid(query: int, numbers: seq<int>, left: nat, mid: nat)
    requires left <= mid < |numbers|
    requires Sorted(numbers)
    requires numbers[mid] < query
    ensures forall j :: left <= j <= mid ==> numbers[j] < query
  {
    forall j | left <= j <= mid ensures numbers[j] < query {
      assert numbers[j] <= numbers[mid];
    }
  }

  /**
   * The contract stated for `binary_search`: on a sorted list the result is a
   * matching index whenever `query` occurs in the range, and otherwise the
   * insertion point, with everything before it smaller and everything from it
   * onward larger.
   */
  lemma SearchSpec(query: int, numbers: seq<int>, left: nat, right: nat)
    requires left <= right <= |numbers|
    requires Sorted(numbers)
    ensures var r := Search(query, numbers, left, right);
      && ((exists j :: left <= j < right && numbers[j] == query) ==> r < right && numbers[r] == query)
      && ((forall j :: left <= j < right ==> numbers[j] != query) ==>
            (forall j :: left <= j < r ==> numbers[j] < query)
            && (forall j :: r <= j < right ==> numbers[j] > query))
  {
    SearchBelow(query, numbers, left, right);
  }

  /** The search runs off the end of the range only when every element is smaller than `query`. */
  lemma SearchPastEnd(query: int, numbers: seq<int>, left: nat, right: nat)
    requires left <= right <= |numbers|
    requires Sorted(numbers)
    requires Search(query, numbers, left, right) == right
    ensures forall j :: left <= j < right ==> numbers[j] < query
  {
    SearchBelow(query, numbers, left, right);
  }
}

=== FILE: delta.dfy ===
/**
 * The two passes of DotPrep.py over a nucmer delta file. The first pass
 * (`getQueryRefCombinations`) groups each query's alignment intervals; the
 * filter decides per query which alignments to keep (`decideAlignmentsToKeep`);
 * the second pass (`filterAlignments`) tags every alignment line unique or
 * repetitive and produces the rows of the coordinates CSV.
 *
 * A file is given as its body lines after the two header lines, already split
 * into fields: a `>` line is a `Header`, a line with more than four fields is
 * an `Alignment`, anything else (indel offsets, the `0` terminator) is `Other`.
 */
module Delta {
  import opened Wrappers
  import opened PlaneSweep

  datatype DeltaLine =
    | Header(refName: string, queryName: string, refLength: int, queryLength: int)
    | Alignment(refStart: int, refEnd: int, queryStart: int, queryEnd: int)
    | Other

  /**
   * Exceptions the passes can raise: a dictionary lookup of a missing key, a
   * list index past the end, or an alignment line read before any header
   * bound the variable `query`.
   */
  datatype DeltaError = KeyError(key: string) | IndexError | UnboundQuery

  /** The alignment's query interval with its ends in order. */
  function Normalize(a: DeltaLine): (r: Interval)
    requires a.Alignment?
    ensures r.0 <= r.1
    ensures r.1 - r.0 == Abs(a.queryEnd - a.queryStart)
    ensures (r.0 == a.queryStart && r.1 == a.queryEnd) || (r.0 == a.queryEnd && r.1 == a.queryStart)
  {
    (if a.queryStart <= a.queryEnd then a.queryStart else a.queryEnd,
     if a.queryStart <= a.queryEnd then a.queryEnd else a.queryStart)
  }

  /** The header line governing what follows `lines`, if any. */
  function LastHeader(lines: seq<DeltaLine>): (h: Option<DeltaLine>)
    ensures h.Some? ==> h.value.Header?
  {
    if |lines| == 0 then None
    else if lines[|lines| - 1].Header? then Some(lines[|lines| - 1])
    else LastHeader(lines[..|lines| - 1])
  }

  /** The query name in force after `lines`; the empty name before any header. */
  function CurrentQuery(lines: seq<DeltaLine>): string {
    match LastHeader(lines)
    case Some(h) => h.queryName
    case None => ""
  }

  /** The header line in force after `lines`; `Other` before any header. */
  function HeaderInForce(lines: seq<DeltaLine>): DeltaLine {
    match LastHeader(lines)
    case Some(h) => h
    case None => Other
  }

  /** The query names of all headers of `lines`. */
  function HeaderQueries(lines: seq<DeltaLine>): set<string> {
    set i | 0 <= i < |lines| && lines[i].Header? :: lines[i].queryName
  }

  /** Every alignment line comes after some header line. */
  ghost predicate AlignmentsFollowHeaders(lines: seq<DeltaLine>) {
    forall j :: 0 <= j < |lines| && lines[j].Alignment? ==> LastHeader(lines[..j]).Some?
  }

  /**
   * Reference definition of the first pass's list for query `q`: the
   * normalised intervals of the alignment lines under headers naming `q`, in
   * file order.
   */
  function IntervalsOf(lines: seq<DeltaLine>, q: string): seq<Interval> {
    if |lines| == 0 then []
    else
      var prefix := lines[..|lines| - 1];
      var last := lines[|lines| - 1];
      IntervalsOf(prefix, q) + (if last.Alignment? && CurrentQuery(prefix) == q then [Normalize(last)] else [])
  }

  /**
   * Reference definition of the first pass's header list for query `q`: for
   * each of the query's alignment lines, the header it sits under.
   */
  function HeadersOf(lines: seq<DeltaLine>, q: string): (hs: seq<DeltaLine>)
    ensures |hs| == |IntervalsOf(lines, q)|
  {
    if |lines| == 0 then []
    else
      var prefix := lines[..|lines| - 1];
      var last := lines[|lines| - 1];
      HeadersOf(prefix, q) +
        (if last.Alignment? && CurrentQuery(prefix) == q then [HeaderInForce(prefix)] else [])
  }

  // ---------------------------------------------------------------------------
  // First pass: getQueryRefCombinations

  /**
   * The loop state of the first pass: the current query and header, the
   * intervals grouped by query, and for each of them the header it sat under.
   * `Other` stands for the empty header text the pass starts with; it never
   * equals a header line.
   */
  datatype Grouping = Grouping(
    current: string,
    currentHeader: DeltaLine,
    linesByQuery: map<string, seq<Interval>>,
    headersByQuery: map<string, seq<DeltaLine>>)

  function GroupStep(g: Grouping, line: DeltaLine): Result<Grouping, DeltaError> {
    match line
    case Header(_, q, _, _) =>
      if q in g.linesByQuery then Ok(g.(current := q, currentHeader := line))
      else Ok(Grouping(q, line, g.linesByQuery[q := []], g.headersByQuery[q := []]))
    case Alignment(_, _, _, _) =>
      if g.current !in g.linesByQuery then Err(KeyError(g.current))
      else if g.current !in g.headersByQuery then Err(KeyError(g.current))
      else Ok(g.(
        linesByQuery := g.linesByQuery[g.current := g.linesByQuery[g.current] + [Normalize(line)]],
        headersByQuery := g.headersByQuery[g.current := g.headersByQuery[g.current] + [g.currentHeader]]))
    case Other => Ok(g)
  }

  /** The first pass over `lines`, starting with the empty query name and no groups. */
  function Group(lines: seq<DeltaLine>): Result<Grouping, DeltaError> {
    if |lines| == 0 then Ok(Grouping("", Other, map[], map[]))
    else
      var g :- Group(lines[..|lines| - 1]);
      GroupStep(g, lines[|lines| - 1])
  }

  /** A header is among the header queries of a prefix exactly when one names it. */
  lemma HeaderQueriesSnoc(lines: seq<DeltaLine>)
    requires |lines| > 0
    ensures var prefix := lines[..|lines| - 1];
      HeaderQueries(lines) ==
        HeaderQueries(prefix) + (if lines[|lines| - 1].Header? then {lines[|lines| - 1].queryName} else {})
  {
    var n := |lines|;
    var prefix := lines[..n - 1];
    forall q | q in HeaderQueries(lines)
      ensures q in HeaderQueries(prefix) + (if lines[n - 1].Header? then {lines[n - 1].queryName} else {})
    {
      var i :| 0 <= i < n && lines[i].Header? && lines[i].queryName == q;
      if i < n - 1 {
        assert prefix[i] == lines[i];
      }
    }
    forall q | q in HeaderQueries(prefix) ensures q in HeaderQueries(lines) {
      var i :| 0 <= i < n - 1 && prefix[i].Header? && prefix[i].queryName == q;
      assert lines[i] == prefix[i];
    }
  }

  /** With a header in force, its query is among the header queries. */
  lemma {:induction false} CurrentQueryIsHeaderQuery(lines: seq<DeltaLine>)
    requires LastHeader(lines).Some?
    ensures CurrentQuery(lines) in HeaderQueries(lines)
  {
    var n := |lines|;
    HeaderQueriesSnoc(lines);
    if !lines[n - 1].Header? {
      CurrentQueryIsHeaderQuery(lines[..n - 1]);
    }
  }

  /** Before any header there are no header queries. */
  lemma {:induction false} NoHeaderNoQueries(lines: seq<DeltaLine>)
    requires LastHeader(lines).None?
    ensures HeaderQueries(lines) == {}
  {
    if |lines| > 0 {
      HeaderQueriesSnoc(lines);
      NoHeaderNoQueries(lines[..|lines| - 1]);
    }
  }

  /** A query no header names collects no intervals. */
  lemma {:induction false} NoIntervalsWithoutHeader(lines: seq<DeltaLine>, q: string)
    requires AlignmentsFollowHeaders(lines)
    requires q !in HeaderQueries(lines)
    ensures IntervalsOf(lines, q) == []
  {
    var n := |lines|;
    if n > 0 {
      var prefix := lines[..n - 1];
      AlignmentsFollowHeadersSnoc(lines);
      HeaderQueriesSnoc(lines);
      NoIntervalsWithoutHeader(prefix, q);
      if lines[n - 1].Alignment? {
        CurrentQueryIsHeaderQuery(prefix);
      }
    }
  }

  lemma AlignmentsFollowHeadersSnoc(lines: seq<DeltaLine>)
    requires |lines| > 0
    ensures var prefix := lines[..|lines| - 1];
      AlignmentsFollowHeaders(lines) <==>
        AlignmentsFollowHeaders(prefix) && (lines[|lines| - 1].Alignment? ==> LastHeader(prefix).Some?)
  {
    var n := |lines|;
    var prefix := lines[..n - 1];
    forall j | 0 <= j < n - 1 ensures prefix[..j] == lines[..j] && prefix[j] == lines[j] {
    }
  }

  /** `g` is the first pass's state after reading `lines`. */
  ghost predicate Describes(g: Grouping, lines: seq<DeltaLine>) {
    && g.current == CurrentQuery(lines)
    && g.currentHeader == HeaderInForce(lines)
    && g.linesByQuery.Keys == HeaderQueries(lines)
    && g.headersByQuery.Keys == HeaderQueries(lines)
    && (forall q :: q in g.linesByQuery ==> g.linesByQuery[q] == IntervalsOf(lines, q))
    && (forall q :: q in g.headersByQuery ==> g.headersByQuery[q] == HeadersOf(lines, q))
  }

  lemma HeaderStep(g: Grouping, lines: seq<DeltaLine>)
    requires |lines| > 0 && lines[|lines| - 1].Header?
    requires AlignmentsFollowHeaders(lines[..|lines| - 1])
    requires Describes(g, lines[..|lines| - 1])
    ensures GroupStep(g, lines[|lines| - 1]).Ok?
    ensures Describes(GroupStep(g, lines[|lines| - 1]).value, lines)
  {
    HeaderQueriesSnoc(lines);
    if lines[|lines| - 1].queryName in g.linesByQuery {
      KnownHeaderStep(g, lines);
    } else {
      NewHeaderStep(g, lines);
    }
  }

  /** A header or other non-alignment line adds to no query's lists. */
  lemma NonAlignmentAddsNothing(lines: seq<DeltaLine>, q: string)
    requires |lines| > 0 && !lines[|lines| - 1].Alignment?
    ensures IntervalsOf(lines, q) == IntervalsOf(lines[..|lines| - 1], q)
    ensures HeadersOf(lines, q) == HeadersOf(lines[..|lines| - 1], q)
  {
  }

  /** After a header line, that header and its query are in force. */
  lemma HeaderInForceAfterHeader(lines: seq<DeltaLine>)
    requires |lines| > 0 && lines[|lines| - 1].Header?
    ensures HeaderInForce(lines) == lines[|lines| - 1]
    ensures CurrentQuery(lines) == lines[|lines| - 1].queryName
  {
  }

  /** A header of a query seen before keeps the groups as they are. */
  lemma KnownHeaderStep(g: Grouping, lines: seq<DeltaLine>)
    requires |lines| > 0 && lines[|lines| - 1].Header?
    requires lines[|lines| - 1].queryName in g.linesByQuery
    requires Describes(g, lines[..|lines| - 1])
    requires HeaderQueries(lines) == HeaderQueries(lines[..|lines| - 1]) + {lines[|lines| - 1].queryName}
    ensures GroupStep(g, lines[|lines| - 1]).Ok?
    ensures Describes(GroupStep(g, lines[|lines| - 1]).value, lines)
  {
    HeaderInForceAfterHeader(lines);
    forall q | q in g.linesByQuery
      ensures IntervalsOf(lines, q) == IntervalsOf(lines[..|lines| - 1], q)
      ensures HeadersOf(lines, q) == HeadersOf(lines[..|lines| - 1], q)
    {
      NonAlignmentAddsNothing(lines, q);
    }
  }

  /** A header of a new query opens empty groups for it. */
  lemma NewHeaderStep(g: Grouping, lines: seq<DeltaLine>)
    requires |lines| > 0 && lines[|lines| - 1].Header?
    requires lines[|lines| - 1].queryName !in g.linesByQuery
    requires AlignmentsFollowHeaders(lines[..|lines| - 1])
    requires Describes(g, lines[..|lines| - 1])
    requires HeaderQueries(lines) == HeaderQueries(lines[..|lines| - 1]) + {lines[|lines| - 1].queryName}
    ensures GroupStep(g, lines[|lines| - 1]).Ok?
    ensures Describes(GroupStep(g, lines[|lines| - 1]).value, lines)
  {
    var q0 := lines[|lines| - 1].queryName;
    HeaderInForceAfterHeader(lines);
    NoIntervalsWithoutHeader(lines[..|lines| - 1], q0);
    forall q | q in g.linesByQuery || q == q0
      ensures IntervalsOf(lines, q) == IntervalsOf(lines[..|lines| - 1], q)
      ensures HeadersOf(lines, q) == HeadersOf(lines[..|lines| - 1], q)
    {
      NonAlignmentAddsNothing(lines, q);
    }
  }

  lemma AlignmentStep(g: Grouping, lines: seq<DeltaLine>)
    requires |lines| > 0 && lines[|lines| - 1].Alignment?
    requires AlignmentsFollowHeaders(lines[..|lines| - 1])
    requires Describes(g, lines[..|lines| - 1])
    ensures GroupStep(g, lines[|lines| - 1]).Ok? <==> LastHeader(lines[..|lines| - 1]).Some?
    ensures GroupStep(g, lines[|lines| - 1]).Ok? ==> Describes(GroupStep(g, lines[|lines| - 1]).value, lines)
  {
    var prefix := lines[..|lines| - 1];
    var last := lines[|lines| - 1];
    HeaderQueriesSnoc(lines);
    if LastHeader(prefix).Some? {
      CurrentQueryIsHeaderQuery(prefix);
      var g' := GroupStep(g, last).value;
      forall q | q in g'.linesByQuery
        ensures g'.linesByQuery[q] == IntervalsOf(lines, q) && g'.headersByQuery[q] == HeadersOf(lines, q)
      {
      }
    } else {
      NoHeaderNoQueries(prefix);
    }
  }

  /** An alignment line fails only before any header, looking up the empty query name. */
  lemma AlignmentStepError(g: Grouping, lines: seq<DeltaLine>)
    requires |lines| > 0 && lines[|lines| - 1].Alignment?
    requires Describes(g, lines[..|lines| - 1])
    ensures GroupStep(g, lines[|lines| - 1]).Err? ==> GroupStep(g, lines[|lines| - 1]).error == KeyError("")
  {
    if LastHeader(lines[..|lines| - 1]).Some? {
      CurrentQueryIsHeaderQuery(lines[..|lines| - 1]);
    }
  }

  lemma OtherStep(g: Grouping, lines: seq<DeltaLine>)
    requires |lines| > 0 && lines[|lines| - 1].Other?
    requires Describes(g, lines[..|lines| - 1])
    ensures GroupStep(g, lines[|lines| - 1]) == Ok(g)
    ensures Describes(g, lines)
  {
    HeaderQueriesSnoc(lines);
  }

  /**
   * The first pass fails exactly when an alignment line precedes every
   * header, and then with a `KeyError` on the empty query name it starts
   * with; otherwise its state is the reference description: the last
   * header's query and line, one group per header query holding that query's
   * intervals in file order, and beside it the header of each.
   */
  lemma {:induction false} GroupSpec(lines: seq<DeltaLine>)
    ensures Group(lines).Ok? <==> AlignmentsFollowHeaders(lines)
    ensures Group(lines).Ok? ==> Describes(Group(lines).value, lines)
    ensures Group(lines).Err? ==> Group(lines).error == KeyError("")
  {
    var n := |lines|;
    if n == 0 {
      assert HeaderQueries(lines) == {};
    } else {
      var prefix := lines[..n - 1];
      var last := lines[n - 1];
      GroupSpec(prefix);
      AlignmentsFollowHeadersSnoc(lines);
      if Group(prefix).Ok? {
        var g := Group(prefix).value;
        match last
        case Header(_, _, _, _) => HeaderStep(g, lines);
        case Alignment(_, _, _, _) =>
          AlignmentStep(g, lines);
          AlignmentStepError(g, lines);
        case Other => OtherStep(g, lines);
      }
    }
  }

  // ---------------------------------------------------------------------------
  // decideAlignmentsToKeep

  /** Runs the plane-sweep filter on every query's intervals. */
  function DecideAlignmentsToKeep(linesByQuery: map<string, seq<Interval>>, uniqueLength: int, keepSmallUniques: bool)
    : (keep: map<string, seq<nat>>)
    ensures keep.Keys == linesByQuery.Keys
    ensures forall q :: q in keep ==> StrictlyIncreasing(keep[q])
    ensures forall q :: q in keep ==> forall i :: 0 <= i < |keep[q]| ==> keep[q][i] < |linesByQuery[q]|
  {
    map q | q in linesByQuery :: Summarize(linesByQuery[q], uniqueLength, keepSmallUniques)
  }
}

=== FILE: dot_index.dfy ===
/**
 * The arithmetic of `index_for_dot` in DotPrep.py (lines 360-490), which
 * reads back the coordinates table: the distinct references with their
 * lengths, each reference's offset along the concatenated reference axis,
 * the per-query decision to flip a query's orientation, and the flip itself.
 */
module DotIndex {
  import opened Filtering

  type Reference = (string, int)

  function Names(refs: seq<Reference>): set<string> {
    set i | 0 <= i < |refs| :: refs[i].0
  }

  ghost predicate DistinctNames(refs: seq<Reference>) {
    forall i, j :: 0 <= i < j < |refs| ==> refs[i].0 != refs[j].0
  }

  function RowRefs(rows: seq<CoordRow>): set<string> {
    set i | 0 <= i < |rows| :: rows[i].ref
  }

  /** Row `k` is the first row naming reference `r.0`, and gives it length `r.1`. */
  ghost predicate FirstRowOf(rows: seq<CoordRow>, k: int, r: Reference) {
    0 <= k < |rows| && rows[k].ref == r.0 && rows[k].refLength == r.1 && rows[k].ref !in RowRefs(rows[..k])
  }

  /** Some row is the first row naming `r.0`, and it gives length `r.1`. */
  ghost predicate HasFirstRow(rows: seq<CoordRow>, r: Reference) {
    exists k :: FirstRowOf(rows, k, r)
  }

  /**
   * The references in order of first appearance, each with the length given
   * by the first row naming it (lines 380-384).
   */
  function DistinctReferences(rows: seq<CoordRow>): (refs: seq<Reference>)
    ensures DistinctNames(refs)
    ensures Names(refs) == RowRefs(rows)
  {
    if |rows| == 0 then []
    else
      var prefix := rows[..|rows| - 1];
      var last := rows[|rows| - 1];
      var d := DistinctReferences(prefix);
      RowRefsSnoc(rows);
      if last.ref in Names(d) then d
      else
        var e := (last.ref, last.refLength);
        NewReference(rows, d);
        NamesSnoc(d + [e]);
        assert (d + [e])[..|d|] == d;
        d + [e]
  }

  /** Each listed reference carries the length of the first row naming it. */
  lemma {:induction false} DistinctReferencesFirstRows(rows: seq<CoordRow>)
    ensures forall i :: 0 <= i < |DistinctReferences(rows)| ==> HasFirstRow(rows, DistinctReferences(rows)[i])
  {
    if |rows| > 0 {
      var prefix := rows[..|rows| - 1];
      var last := rows[|rows| - 1];
      var d := DistinctReferences(prefix);
      DistinctReferencesFirstRows(prefix);
      FirstRowsSnoc(rows, prefix, d);
      if last.ref !in Names(d) {
        RowRefsSnoc(rows);
        NewReference(rows, d);
      }
    }
  }

  lemma RowRefsSnoc(rows: seq<CoordRow>)
    requires |rows| > 0
    ensures RowRefs(rows) == RowRefs(rows[..|rows| - 1]) + {rows[|rows| - 1].ref}
  {
    var prefix := rows[..|rows| - 1];
    forall r | r in RowRefs(prefix) ensures r in RowRefs(rows) {
      var i :| 0 <= i < |prefix| && prefix[i].ref == r;
      assert rows[i] == prefix[i];
    }
  }

  /** The first-row witnesses for a prefix remain witnesses for `rows`. */
  lemma FirstRowsSnoc(rows: seq<CoordRow>, prefix: seq<CoordRow>, d: seq<Reference>)
    requires |rows| > 0 && prefix == rows[..|rows| - 1]
    requires forall i :: 0 <= i < |d| ==> HasFirstRow(prefix, d[i])
    ensures forall i :: 0 <= i < |d| ==> HasFirstRow(rows, d[i])
  {
    forall i | 0 <= i < |d| ensures HasFirstRow(rows, d[i]) {
      var k :| FirstRowOf(prefix, k, d[i]);
      assert prefix[..k] == rows[..k];
      assert FirstRowOf(rows, k, d[i]);
    }
  }

  /** A row naming a reference not seen before is its first row. */
  lemma NewReference(rows: seq<CoordRow>, d: seq<Reference>)
    requires |rows| > 0
    requires DistinctNames(d) && Names(d) == RowRefs(rows[..|rows| - 1])
    requires rows[|rows| - 1].ref !in Names(d)
    ensures var e := (rows[|rows| - 1].ref, rows[|rows| - 1].refLength);
      DistinctNames(d + [e]) && FirstRowOf(rows, |rows| - 1, e)
  {
    var e := (rows[|rows| - 1].ref, rows[|rows| - 1].refLength);
    forall i | 0 <= i < |d| ensures d[i].0 != e.0 {
      assert d[i].0 in Names(d);
    }
  }

  // ---------------------------------------------------------------------------
  // Cumulative offsets

  /** The summed lengths of the references before position `i`. */
  function PrefixSum(refs: seq<Reference>, i: nat): int
    requires i <= |refs|
  {
    if i == 0 then 0 else PrefixSum(refs, i - 1) + refs[i - 1].1
  }

  /** The names listed before position `n`. */
  function NamesBefore(refs: seq<Reference>, n: int): set<string>
    requires 0 <= n <= |refs|
  {
    set k | 0 <= k < n :: refs[k].0
  }

  lemma NamesBeforeStep(refs: seq<Reference>, n: int)
    requires 0 <= n < |refs|
    ensures NamesBefore(refs, n + 1) == NamesBefore(refs, n) + {refs[n].0}
  {
  }

  lemma NamesBeforeAll(refs: seq<Reference>)
    ensures NamesBefore(refs, |refs|) == Names(refs)
  {
  }

  /** No listing after position `k`, and before `n`, has the name of listing `k`. */
  ghost predicate LastListingBefore(refs: seq<Reference>, k: int, n: int)
    requires 0 <= k < n <= |refs|
  {
    forall j :: k < j < n ==> refs[j].0 != refs[k].0
  }

  /** Listing `k`'s name maps to the summed lengths listed before it. */
  ghost predicate Recorded(refs: seq<Reference>, offsets: map<string, int>, k: int)
    requires 0 <= k < |refs|
  {
    refs[k].0 in offsets && offsets[refs[k].0] == PrefixSum(refs, k)
  }

  /**
   * Each reference's offset on the concatenated axis (lines 393-399): the
   * running total of the lengths before it. A name listed twice keeps the
   * offset of its last listing, as the dictionary is overwritten.
   */
  method CumulativeOffsets(refs: seq<Reference>) returns (offsets: map<string, int>)
    ensures offsets.Keys == Names(refs)
    ensures forall i :: 0 <= i < |refs| && LastListingBefore(refs, i, |refs|) ==> Recorded(refs, offsets, i)
    ensures DistinctNames(refs) ==> forall i :: 0 <= i < |refs| ==> Recorded(refs, offsets, i)
  {
    var cumulativeSum := 0;
    offsets := map[];
    var i := 0;
    while i < |refs|
      invariant 0 <= i <= |refs|
      invariant cumulativeSum == PrefixSum(refs, i)
      invariant offsets == OffsetsUpTo(refs, i)
    {
      offsets := offsets[refs[i].0 := cumulativeSum];
      cumulativeSum := cumulativeSum + refs[i].1;
      i := i + 1;
    }
    OffsetsMeaning(refs);
  }

  /** The dictionary after every listing: keys are the names, values the offsets of last listings. */
  lemma OffsetsMeaning(refs: seq<Reference>)
    ensures OffsetsUpTo(refs, |refs|).Keys == Names(refs)
    ensures forall i :: 0 <= i < |refs| && LastListingBefore(refs, i, |refs|) ==> Recorded(refs, OffsetsUpTo(refs, |refs|), i)
    ensures DistinctNames(refs) ==> forall i :: 0 <= i < |refs| ==> Recorded(refs, OffsetsUpTo(refs, |refs|), i)
  {
    OffsetsUpToKeys(refs, |refs|);
    NamesBeforeAll(refs);
    forall i | 0 <= i < |refs| && LastListingBefore(refs, i, |refs|)
      ensures Recorded(refs, OffsetsUpTo(refs, |refs|), i)
    {
      OffsetOfLastListing(refs, |refs|, i);
    }
    DistinctListingsAreLast(refs);
  }

  /** The dictionary after the first `n` listings have been recorded. */
  function OffsetsUpTo(refs: seq<Reference>, n: int): map<string, int>
    requires 0 <= n <= |refs|
  {
    if n == 0 then map[] else OffsetsUpTo(refs, n - 1)[refs[n - 1].0 := PrefixSum(refs, n - 1)]
  }

  lemma {:induction false} OffsetsUpToKeys(refs: seq<Reference>, n: int)
    requires 0 <= n <= |refs|
    ensures OffsetsUpTo(refs, n).Keys == NamesBefore(refs, n)
  {
    if n > 0 {
      OffsetsUpToKeys(refs, n - 1);
      NamesBeforeStep(refs, n - 1);
    }
  }

  /** A listing that no later one (before `n`) renames keeps its offset. */
  lemma {:induction false} OffsetOfLastListing(refs: seq<Reference>, n: int, k: int)
    requires 0 <= k < n <= |refs|
    requires LastListingBefore(refs, k, n)
    ensures Recorded(refs, OffsetsUpTo(refs, n), k)
  {
    if k < n - 1 {
      assert refs[n - 1].0 != refs[k].0;
      assert LastListingBefore(refs, k, n - 1);
      OffsetOfLastListing(refs, n - 1, k);
    }
  }

  lemma DistinctListingsAreLast(refs: seq<Reference>)
    ensures DistinctNames(refs) ==> forall k :: 0 <= k < |refs| ==> LastListingBefore(refs, k, |refs|)
  {
  }

  lemma NamesSnoc(refs: seq<Reference>)
    requires |refs| > 0
    ensures Names(refs) == Names(refs[..|refs| - 1]) + {refs[|refs| - 1].0}
  {
    var prefix := refs[..|refs| - 1];
    forall r | r in Names(prefix) ensures r in Names(refs) {
      var i :| 0 <= i < |prefix| && prefix[i].0 == r;
      assert refs[i] == prefix[i];
    }
  }

  /**
   * Offsets grow along the reference order: weakly when no length is
   * negative, strictly when every length is positive.
   */
  lemma {:induction false} OffsetsIncrease(refs: seq<Reference>, i: nat, j: nat)
    requires i <= j <= |refs|
    requires forall k :: 0 <= k < |refs| ==> refs[k].1 >= 0
    ensures PrefixSum(refs, i) <= PrefixSum(refs, j)
    ensures (forall k :: 0 <= k < |refs| ==> refs[k].1 > 0) && i < j ==> PrefixSum(refs, i) < PrefixSum(refs, j)
    decreases j
  {
    if i < j {
      OffsetsIncrease(refs, i, j - 1);
    }
  }

  // ---------------------------------------------------------------------------
  // Orientation

  /** Reverse alignments run backwards along the query. */
  predicate IsReverse(row: CoordRow) {
    row.queryEnd < row.queryStart
  }

  function AlignmentLength(row: CoordRow): nat {
    if row.queryEnd < row.queryStart then row.queryStart - row.queryEnd else row.queryEnd - row.queryStart
  }

  /** The length a row adds to the forward or the reverse total. */
  function Vote(row: CoordRow, reverse: bool): nat {
    if row.tag == Unique && IsReverse(row) == reverse then AlignmentLength(row) else 0
  }

  /** Total length of the unique forward alignments. */
  function ForwardLength(rows: seq<CoordRow>): nat {
    if |rows| == 0 then 0 else ForwardLength(rows[..|rows| - 1]) + Vote(rows[|rows| - 1], false)
  }

  /** Total length of the unique reverse alignments. */
  function ReverseLength(rows: seq<CoordRow>): nat {
    if |rows| == 0 then 0 else ReverseLength(rows[..|rows| - 1]) + Vote(rows[|rows| - 1], true)
  }

  /**
   * The orientation decision for one query's rows (lines 407-440): sum the
   * lengths of its unique alignments by direction, and flip when reverse
   * outweighs forward. Repetitive alignments do not vote.
   */
  method DecideFlip(rows: seq<CoordRow>) returns (flip: bool)
    ensures flip <==> ReverseLength(rows) > ForwardLength(rows)
    ensures (forall k :: 0 <= k < |rows| ==> rows[k].tag == Repetitive) ==> !flip
  {
    var sumForward := 0;
    var sumReverse := 0;
    var i := 0;
    while i < |rows|
      invariant 0 <= i <= |rows|
      invariant sumForward == ForwardLength(rows[..i])
      invariant sumReverse == ReverseLength(rows[..i])
    {
      assert rows[..i + 1][..i] == rows[..i];
      var row := rows[i];
      if row.tag == Unique {
        var alignmentLength := AlignmentLength(row);
        if row.queryEnd < row.queryStart {
          sumReverse := sumReverse + alignmentLength;
        } else {
          sumForward := sumForward + alignmentLength;
        }
      }
      i := i + 1;
    }
    assert rows[..i] == rows;
    flip := sumReverse > sumForward;
    if forall k :: 0 <= k < |rows| ==> rows[k].tag == Repetitive {
      NoUniqueNoVotes(rows);
    }
  }

  lemma {:induction false} NoUniqueNoVotes(rows: seq<CoordRow>)
    requires forall k :: 0 <= k < |rows| ==> rows[k].tag == Repetitive
    ensures ForwardLength(rows) == 0 && ReverseLength(rows) == 0
  {
    if |rows| > 0 {
      NoUniqueNoVotes(rows[..|rows| - 1]);
    }
  }

  /** Totals over a concatenation are the sums of the totals over its parts. */
  lemma {:induction false} TotalsAppend(a: seq<CoordRow>, b: seq<CoordRow>)
    ensures ForwardLength(a + b) == ForwardLength(a) + ForwardLength(b)
    ensures ReverseLength(a + b) == ReverseLength(a) + ReverseLength(b)
    decreases |b|
  {
    if |b| == 0 {
      assert a + b == a;
    } else {
      assert (a + b)[..|a + b| - 1] == a + b[..|b| - 1];
      TotalsAppend(a, b[..|b| - 1]);
    }
  }

  /** A single repetitive row has both totals zero. */
  lemma RepetitiveRowTotals(row: CoordRow)
    requires row.tag == Repetitive
    ensures ForwardLength([row]) == 0 && ReverseLength([row]) == 0
  {
    assert [row][..0] == [];
  }

  /** A repetitive row adds to neither total, wherever it sits among a query's rows. */
  lemma RepetitiveAddsNothing(before: seq<CoordRow>, row: CoordRow, after: seq<CoordRow>)
    requires row.tag == Repetitive
    ensures ForwardLength(before + [row] + after) == ForwardLength(before + after)
    ensures ReverseLength(before + [row] + after) == ReverseLength(before + after)
  {
    RepetitiveRowTotals(row);
    TotalsAppend(before + [row], after);
    TotalsAppend(before, [row]);
    TotalsAppend(before, after);
  }

  /** A query coordinate measured from the other end of the query. */
  function FlipCoordinate(queryLength: int, p: int): (r: int)
    ensures 0 <= p <= queryLength ==> 0 <= r <= queryLength
    ensures queryLength - r == p
  {
    queryLength - p
  }

  /** The row as written to the oriented table (lines 484-486): flipped queries get both query ends mirrored. */
  function OrientRow(row: CoordRow, flip: bool): (r: CoordRow)
    ensures r.query == row.query && r.tag == row.tag && r.queryLength == row.queryLength
    ensures !flip ==> r == row
    ensures AlignmentLength(r) == AlignmentLength(row)
    ensures flip ==> (IsReverse(r) <==> row.queryStart < row.queryEnd)
    ensures flip ==> r.queryStart == row.queryLength - row.queryStart && r.queryEnd == row.queryLength - row.queryEnd
    ensures r.(queryStart := row.queryStart, queryEnd := row.queryEnd) == row
  {
    if flip then
      row.(queryStart := FlipCoordinate(row.queryLength, row.queryStart),
           queryEnd := FlipCoordinate(row.queryLength, row.queryEnd))
    else row
  }

  /** Mirroring twice restores the row. */
  lemma FlipInvolution(row: CoordRow)
    ensures OrientRow(OrientRow(row, true), true) == row
  {
  }

  /** Mirroring keeps query coordinates that lie within the query inside it. */
  lemma FlipInBounds(row: CoordRow)
    requires 0 <= row.queryStart <= row.queryLength && 0 <= row.queryEnd <= row.queryLength
    ensures var r := OrientRow(row, true);
      0 <= r.queryStart <= r.queryLength && 0 <= r.queryEnd <= r.queryLength
  {
  }

  function OrientRows(rows: seq<CoordRow>, flip: bool): (r: seq<CoordRow>)
    ensures |r| == |rows|
    ensures forall k :: 0 <= k < |rows| ==> r[k] == OrientRow(rows[k], flip)
  {
    seq(|rows|, k requires 0 <= k < |rows| => OrientRow(rows[k], flip))
  }

  /**
   * Mirroring a query's rows swaps its forward and reverse totals: a reverse
   * alignment becomes forward and a forward one of positive length becomes
   * reverse (zero-length alignments count nowhere).
   */
  lemma {:induction false} FlipSwapsTotals(rows: seq<CoordRow>)
    ensures ForwardLength(OrientRows(rows, true)) == ReverseLength(rows)
    ensures ReverseLength(OrientRows(rows, true)) == ForwardLength(rows)
  {
    if |rows| > 0 {
      var prefix := rows[..|rows| - 1];
      FlipSwapsTotals(prefix);
      assert OrientRows(rows, true)[..|rows| - 1] == OrientRows(prefix, true);
    }
  }

  /** Once a query is oriented, the decision would not flip it again. */
  lemma OrientedStaysPut(rows: seq<CoordRow>)
    ensures var flip := ReverseLength(rows) > ForwardLength(rows);
      ReverseLength(OrientRows(rows, flip)) <= ForwardLength(OrientRows(rows, flip))
  {
    if ReverseLength(rows) > ForwardLength(rows) {
      FlipSwapsTotals(rows);
    } else {
      assert OrientRows(rows, false) == rows;
    }
  }

  // ---------------------------------------------------------------------------
  // The whole table

  /** The rows of query `q`, in table order (`fields_by_query`). */
  function RowsOf(rows: seq<CoordRow>, q: string): (r: seq<CoordRow>)
    ensures |r| <= |rows|
    ensures forall k :: 0 <= k < |r| ==> r[k].query == q
  {
    if |rows| == 0 then []
    else RowsOf(rows[..|rows| - 1], q) + (if rows[|rows| - 1].query == q then [rows[|rows| - 1]] else [])
  }

  /** A query's rows are exactly the table rows naming it. */
  lemma {:induction false} RowsOfSelects(rows: seq<CoordRow>, q: string)
    ensures forall k :: 0 <= k < |RowsOf(rows, q)| ==> RowsOf(rows, q)[k] in rows
    ensures forall k :: 0 <= k < |rows| && rows[k].query == q ==> rows[k] in RowsOf(rows, q)
  {
    if |rows| > 0 {
      var prefix := rows[..|rows| - 1];
      RowsOfSelects(prefix, q);
      forall k | 0 <= k < |RowsOf(prefix, q)| ensures RowsOf(prefix, q)[k] in rows {
        var x := RowsOf(prefix, q)[k];
        var i :| 0 <= i < |prefix| && prefix[i] == x;
        assert rows[i] == x;
      }
      forall k | 0 <= k < |prefix| && prefix[k].query == q ensures prefix[k] in RowsOf(rows, q) {
        assert prefix[k] in RowsOf(prefix, q);
      }
    }
  }

  /**
   * A row naming `q` appears among the query's rows at the position given by
   * the number of earlier rows naming `q`: table order, each row once.
   */
  lemma {:induction false} RowsOfOrdinal(rows: seq<CoordRow>, q: string)
    ensures forall k :: 0 <= k < |rows| && rows[k].query == q ==>
      |RowsOf(rows[..k], q)| < |RowsOf(rows, q)| && RowsOf(rows, q)[|RowsOf(rows[..k], q)|] == rows[k]
  {
    var n := |rows|;
    if n > 0 {
      var prefix := rows[..n - 1];
      RowsOfOrdinal(prefix, q);
      var r := RowsOf(rows, q);
      var r0 := RowsOf(prefix, q);
      assert r == r0 + (if rows[n - 1].query == q then [rows[n - 1]] else []);
      forall k | 0 <= k < n && rows[k].query == q
        ensures |RowsOf(rows[..k], q)| < |r| && r[|RowsOf(rows[..k], q)|] == rows[k]
      {
        if k < n - 1 {
          assert rows[..k] == prefix[..k] && rows[k] == prefix[k];
          assert r[|RowsOf(prefix[..k], q)|] == r0[|RowsOf(prefix[..k], q)|];
        } else {
          assert rows[..k] == prefix;
        }
      }
    }
  }

  /** Position `i` among the rows of `q` is filled by some table row naming `q`. */
  ghost predicate FilledFromTable(rows: seq<CoordRow>, q: string, i: nat) {
    exists k :: 0 <= k < |rows| && rows[k].query == q && |RowsOf(rows[..k], q)| == i
  }

  /** Every position among a query's rows holds the row at some table index naming `q`. */
  lemma {:induction false} RowsOfOnto(rows: seq<CoordRow>, q: string)
    ensures forall i :: 0 <= i < |RowsOf(rows, q)| ==> FilledFromTable(rows, q, i)
  {
    var n := |rows|;
    if n > 0 {
      var prefix := rows[..n - 1];
      RowsOfOnto(prefix, q);
      var r0 := RowsOf(prefix, q);
      assert RowsOf(rows, q) == r0 + (if rows[n - 1].query == q then [rows[n - 1]] else []);
      forall i | 0 <= i < |RowsOf(rows, q)|
        ensures FilledFromTable(rows, q, i)
      {
        if i < |r0| {
          assert FilledFromTable(prefix, q, i);
          var k :| 0 <= k < n - 1 && prefix[k].query == q && |RowsOf(prefix[..k], q)| == i;
          assert rows[..k] == prefix[..k];
        } else {
          assert rows[..n - 1] == prefix;
        }
      }
    }
  }

  function QueriesOf(rows: seq<CoordRow>): set<string> {
    set k | 0 <= k < |rows| :: rows[k].query
  }

  /** The flip decision of every query of the table. */
  function FlipByQuery(rows: seq<CoordRow>): (flips: map<string, bool>)
    ensures flips.Keys == QueriesOf(rows)
    ensures forall q :: q in flips ==> (flips[q] <==> ReverseLength(RowsOf(rows, q)) > ForwardLength(RowsOf(rows, q)))
  {
    map q | q in QueriesOf(rows) :: ReverseLength(RowsOf(rows, q)) > ForwardLength(RowsOf(rows, q))
  }

  /** The oriented table: every row mirrored when its query is flipped. */
  function OrientTable(rows: seq<CoordRow>): (r: seq<CoordRow>)
    ensures |r| == |rows|
  {
    var flips := FlipByQuery(rows);
    seq(|rows|, k requires 0 <= k < |rows| => OrientRow(rows[k], flips[rows[k].query]))
  }

  /** The orientation decision would leave these rows as they are. */
  ghost predicate Unflipped(rows: seq<CoordRow>) {
    ReverseLength(rows) <= ForwardLength(rows)
  }

  /** Orienting the rows of one query by a fixed decision commutes with selecting them. */
  lemma {:induction false} RowsOfOriented(rows: seq<CoordRow>, flips: map<string, bool>, q: string)
    requires q in flips
    ensures RowsOf(seq(|rows|, k requires 0 <= k < |rows| => if rows[k].query in flips then OrientRow(rows[k], flips[rows[k].query]) else rows[k]), q)
      == OrientRows(RowsOf(rows, q), flips[q])
  {
    if |rows| > 0 {
      var prefix := rows[..|rows| - 1];
      RowsOfOriented(prefix, flips, q);
      var f := seq(|rows|, k requires 0 <= k < |rows| => if rows[k].query in flips then OrientRow(rows[k], flips[rows[k].query]) else rows[k]);
      var fp := seq(|prefix|, k requires 0 <= k < |prefix| => if prefix[k].query in flips then OrientRow(prefix[k], flips[prefix[k].query]) else prefix[k]);
      assert f[..|rows| - 1] == fp;
      assert OrientRows(RowsOf(rows, q), flips[q]) ==
        OrientRows(RowsOf(prefix, q), flips[q]) + (if rows[|rows| - 1].query == q then [OrientRow(rows[|rows| - 1], flips[q])] else []);
    }
  }

  /** After orienting the whole table, no query would be flipped again. */
  lemma OrientTableStable(rows: seq<CoordRow>, q: string)
    requires q in QueriesOf(rows)
    ensures Unflipped(RowsOf(OrientTable(rows), q))
  {
    var flips := FlipByQuery(rows);
    var f := seq(|rows|, k requires 0 <= k < |rows| => if rows[k].query in flips then OrientRow(rows[k], flips[rows[k].query]) else rows[k]);
    assert OrientTable(rows) == f;
    RowsOfOriented(rows, flips, q);
    OrientedStaysPut(RowsOf(rows, q));
  }
}

=== FILE: events.dfy ===
/**
 * The `(position, "start"|"stop")` events of the plane sweep and the stable
 * sort by position that orders them (Python's `sorted` with a key is stable).
 */
module Events {

  datatype Change = Start | Stop

  datatype Event = Event(pos: int, change: Change)

  /** Net change of coverage an event causes. */
  function Delta(e: Event): int {
    if e.change == Start then 1 else -1
  }

  /** Number of starts minus number of stops: the coverage after all of `es`. */
  function Coverage(es: seq<Event>): int {
    if |es| == 0 then 0 else Delta(es[0]) + Coverage(es[1..])
  }

  lemma {:induction false} CoverageAppend(a: seq<Event>, b: seq<Event>)
    ensures Coverage(a + b) == Coverage(a) + Coverage(b)
  {
    if |a| == 0 {
      assert a + b == b;
    } else {
      assert (a + b)[1..] == a[1..] + b;
      CoverageAppend(a[1..], b);
    }
  }

  /** Coverage of a prefix grows by the delta of the next event. */
  lemma CoverageSnoc(es: seq<Event>, n: nat)
    requires 0 < n <= |es|
    ensures Coverage(es[..n]) == Coverage(es[..n - 1]) + Delta(es[n - 1])
  {
    assert es[..n] == es[..n - 1] + [es[n - 1]];
    CoverageAppend(es[..n - 1], [es[n - 1]]);
  }

  ghost predicate SortedByPosition(es: seq<Event>) {
    forall i, j :: 0 <= i < j < |es| ==> es[i].pos <= es[j].pos
  }

  /** The events of `es` at position `p`, in their order in `es`. */
  function AtPosition(es: seq<Event>, p: int): seq<Event> {
    if |es| == 0 then []
    else (if es[0].pos == p then [es[0]] else []) + AtPosition(es[1..], p)
  }


  /**
   * Places `e` in front of the first element whose position is not below its
   * own, so that `e` stays ahead of every later event at the same position.
   */
  function Insert(e: Event, s: seq<Event>): (r: seq<Event>)
    ensures |r| == |s| + 1
    ensures multiset(r) == multiset(s) + multiset{e}
    ensures forall x :: x in r <==> x == e || x in s
  {
    if |s| == 0 || e.pos <= s[0].pos then [e] + s
    else
      assert s == [s[0]] + s[1..];
      [s[0]] + Insert(e, s[1..])
  }

  lemma {:induction false} InsertSorted(e: Event, s: seq<Event>)
    requires SortedByPosition(s)
    ensures SortedByPosition(Insert(e, s))
  {
    if |s| > 0 && e.pos > s[0].pos {
      var t := Insert(e, s[1..]);
      InsertSorted(e, s[1..]);
      var r := [s[0]] + t;
      assert r == Insert(e, s);
      forall j | 0 <= j < |t| ensures s[0].pos <= t[j].pos {
        assert t[j] in t;
        if t[j] != e {
          var k :| 0 <= k < |s[1..]| && s[1..][k] == t[j];
          assert s[k + 1] == t[j];
        }
      }
      forall i, j | 0 <= i < j < |r| ensures r[i].pos <= r[j].pos {
        if i == 0 {
          assert r[j] == t[j - 1];
        } else {
          assert r[i] == t[i - 1] && r[j] == t[j - 1];
        }
      }
    }
  }

  lemma {:induction false} InsertCoverage(e: Event, s: seq<Event>)
    ensures Coverage(Insert(e, s)) == Delta(e) + Coverage(s)
  {
    if |s| == 0 || e.pos <= s[0].pos {
      assert ([e] + s)[1..] == s;
    } else {
      var t := Insert(e, s[1..]);
      assert ([s[0]] + t)[1..] == t;
      InsertCoverage(e, s[1..]);
    }
  }

  /**
   * Stable sort by position: insertion sort that inserts each event ahead of
   * the already sorted later events.
   */
  function SortByPosition(es: seq<Event>): (r: seq<Event>)
    ensures |r| == |es|
    ensures multiset(r) == multiset(es)
    ensures SortedByPosition(r)
    ensures Coverage(r) == Coverage(es)
  {
    if |es| == 0 then []
    else
      assert es == [es[0]] + es[1..];
      var t := SortByPosition(es[1..]);
      InsertSorted(es[0], t);
      InsertCoverage(es[0], t);
      Insert(es[0], t)
  }

  lemma {:induction false} InsertAtPosition(e: Event, s: seq<Event>, p: int)
    requires SortedByPosition(s)
    ensures AtPosition(Insert(e, s), p) == (if e.pos == p then [e] else []) + AtPosition(s, p)
  {
    if |s| == 0 || e.pos <= s[0].pos {
      assert ([e] + s)[1..] == s;
    } else {
      var t := Insert(e, s[1..]);
      assert Insert(e, s) == [s[0]] + t;
      assert ([s[0]] + t)[1..] == t;
      InsertAtPosition(e, s[1..], p);
      var head := if s[0].pos == p then [s[0]] else [];
      var mine := if e.pos == p then [e] else [];
      assert AtPosition(s, p) == head + AtPosition(s[1..], p);
      assert AtPosition([s[0]] + t, p) == head + AtPosition(t, p);
      assert head == [] || mine == [];
    }
  }

  /**
   * Stability: for every position, the events at that position appear in the
   * sorted sequence in exactly their original order.
   */
  lemma {:induction false} SortIsStable(es: seq<Event>, p: int)
    ensures AtPosition(SortByPosition(es), p) == AtPosition(es, p)
  {
    if |es| > 0 {
      SortIsStable(es[1..], p);
      InsertAtPosition(es[0], SortByPosition(es[1..]), p);
    }
  }

  /** The last event of `es`, in input order, among those at the largest position. */
  function LastAtMaximum(es: seq<Event>): (r: Event)
    requires |es| > 0
    ensures r in es
    ensures forall x :: x in es ==> x.pos <= r.pos
  {
    if |es| == 1 then es[0]
    else
      var m := LastAtMaximum(es[1..]);
      if es[0].pos > m.pos then es[0] else m
  }

  lemma {:induction false} InsertLast(e: Event, s: seq<Event>)
    requires SortedByPosition(s)
    ensures var r := Insert(e, s);
      r[|r| - 1] == if |s| == 0 || e.pos > s[|s| - 1].pos then e else s[|s| - 1]
  {
    if |s| > 0 && e.pos > s[0].pos {
      var t := Insert(e, s[1..]);
      assert ([s[0]] + t)[|s|] == t[|s| - 1];
      if |s| > 1 {
        assert SortedByPosition(s[1..]);
        assert s[1..][|s| - 2] == s[|s| - 1];
        InsertLast(e, s[1..]);
      }
    }
  }

  /**
   * The stable sort ends with the last input event of the largest position:
   * ties at the end keep their input order.
   */
  lemma {:induction false} SortLast(es: seq<Event>)
    requires |es| > 0
    ensures var r := SortByPosition(es); r[|r| - 1] == LastAtMaximum(es)
  {
    var t := SortByPosition(es[1..]);
    assert SortByPosition(es) == Insert(es[0], t);
    InsertLast(es[0], t);
    if |es| > 1 {
      SortLast(es[1..]);
    } else {
      assert t == [];
    }
  }
}

=== FILE: filter.dfy ===
/**
 * The second pass of DotPrep.py (`filterAlignments`, lines 15-113): it walks
 * the delta file again, counts each query's alignments, tags each alignment
 * unique when its ordinal is in the query's keep list, writes the rows of the
 * coordinates table, copies the kept parts of the delta file, and collects
 * the reference and query lengths.
 */
module Filtering {
  import opened Wrappers
  import opened PlaneSweep
  import opened Delta

  datatype Tag = Unique | Repetitive

  /** One row of the coordinates table; names are kept raw (see `CsvName`). */
  datatype CoordRow = CoordRow(
    refStart: int, refEnd: int, queryStart: int, queryEnd: int,
    refLength: int, queryLength: int,
    ref: string, query: string, tag: Tag)

  /**
   * The loop state of the second pass. `header` is the header line in force
   * (`None` while `query` is still unbound); `written` holds the indices of
   * the body lines copied to the filtered delta file.
   */
  datatype FilterState = FilterState(
    header: Option<DeltaLine>,
    keepList: seq<nat>,
    counter: map<string, nat>,
    keepPrinting: bool,
    written: seq<nat>,
    rows: seq<CoordRow>,
    refSeen: set<string>, refLengths: seq<int>,
    querySeen: set<string>, queryLengths: seq<int>)

  /** The name as written to the CSV table: commas become underscores. */
  function CsvName(name: string): (r: string)
    ensures |r| == |name|
    ensures forall i :: 0 <= i < |r| ==> r[i] != ','
    ensures forall i :: 0 <= i < |r| ==> name[i] != ',' ==> r[i] == name[i]
    ensures forall i :: 0 <= i < |r| ==> name[i] == ',' ==> r[i] == '_'
  {
    if |name| == 0 then ""
    else [if name[0] == ',' then '_' else name[0]] + CsvName(name[1..])
  }

  /** Some kept alignment of the query was recorded under exactly this header. */
  predicate HeaderNeeded(line: DeltaLine, keepList: seq<nat>, headers: seq<DeltaLine>)
    requires forall i :: 0 <= i < |keepList| ==> keepList[i] < |headers|
  {
    exists i :: 0 <= i < |keepList| && headers[keepList[i]] == line
  }

  /** What the header of query `q` looks up, and what those lookups need. */
  predicate HeaderLookupsSucceed(q: string, keep: map<string, seq<nat>>, headers: map<string, seq<DeltaLine>>) {
    && q in keep
    && (|keep[q]| > 0 ==> q in headers && forall i :: 0 <= i < |keep[q]| ==> keep[q][i] < |headers[q]|)
  }

  function FilterStep(st: FilterState, line: DeltaLine, index: nat,
                      keep: map<string, seq<nat>>, headers: map<string, seq<DeltaLine>>)
    : Result<FilterState, DeltaError>
  {
    match line
    case Header(r, q, rl, ql) =>
      if q !in keep then Err(KeyError(q))
      else if |keep[q]| > 0 && q !in headers then Err(KeyError(q))
      else if exists i :: 0 <= i < |keep[q]| && keep[q][i] >= |headers[q]| then Err(IndexError)
      else
        var needed := exists i :: 0 <= i < |keep[q]| && headers[q][keep[q][i]] == line;
        Ok(st.(
          header := Some(line),
          keepList := keep[q],
          counter := st.counter[q := if q in st.counter then st.counter[q] else 0],
          written := st.written + (if needed then [index] else []),
          refSeen := st.refSeen + {r},
          refLengths := st.refLengths + (if r in st.refSeen then [] else [rl]),
          querySeen := st.querySeen + {q},
          queryLengths := st.queryLengths + (if q in st.querySeen then [] else [ql])))
    case Alignment(rs, re, qs, qe) =>
      if st.header.None? || !st.header.value.Header? then Err(UnboundQuery)
      else
        var h := st.header.value;
        if h.queryName !in st.counter then Err(KeyError(h.queryName))
        else
          var n := st.counter[h.queryName];
          var unique := n in st.keepList;
          Ok(st.(
            counter := st.counter[h.queryName := n + 1],
            keepPrinting := unique,
            written := st.written + (if unique then [index] else []),
            rows := st.rows + [CoordRow(rs, re, qs, qe, h.refLength, h.queryLength, h.refName, h.queryName,
                                        if unique then Unique else Repetitive)]))
    case Other =>
      Ok(st.(written := st.written + (if st.keepPrinting then [index] else [])))
  }

  /** The second pass over `lines` with the keep lists and header lists of the first. */
  function Filter(lines: seq<DeltaLine>, keep: map<string, seq<nat>>, headers: map<string, seq<DeltaLine>>)
    : Result<FilterState, DeltaError>
  {
    if |lines| == 0 then Ok(FilterState(None, [], map[], false, [], [], {}, [], {}, []))
    else
      var st :- Filter(lines[..|lines| - 1], keep, headers);
      FilterStep(st, lines[|lines| - 1], |lines| - 1, keep, headers)
  }

  // ---------------------------------------------------------------------------
  // Reference description of the second pass

  /** Every lookup the second pass makes succeeds: alignments follow a header, headers' lookups hit. */
  ghost predicate CanRun(lines: seq<DeltaLine>, keep: map<string, seq<nat>>, headers: map<string, seq<DeltaLine>>) {
    && AlignmentsFollowHeaders(lines)
    && forall q :: q in HeaderQueries(lines) ==> HeaderLookupsSucceed(q, keep, headers)
  }

  /**
   * An alignment line after `prefix` is unique when its ordinal among the
   * alignments of its query (the number of them before it) is in the
   * query's keep list.
   */
  predicate UniqueAt(prefix: seq<DeltaLine>, keep: map<string, seq<nat>>) {
    var q := CurrentQuery(prefix);
    q in keep && |IntervalsOf(prefix, q)| in keep[q]
  }

  /** The most recent alignment line of `lines` exists and is unique. */
  predicate PrintingAfter(lines: seq<DeltaLine>, keep: map<string, seq<nat>>) {
    if |lines| == 0 then false
    else if lines[|lines| - 1].Alignment? then UniqueAt(lines[..|lines| - 1], keep)
    else PrintingAfter(lines[..|lines| - 1], keep)
  }

  /** `st` is the second pass's core state after reading `lines`. */
  ghost predicate Tracks(st: FilterState, lines: seq<DeltaLine>, keep: map<string, seq<nat>>) {
    && st.header == LastHeader(lines)
    && (st.header.Some? && CurrentQuery(lines) in keep ==> st.keepList == keep[CurrentQuery(lines)])
    && st.counter.Keys == HeaderQueries(lines)
    && (forall q :: q in st.counter ==> st.counter[q] == |IntervalsOf(lines, q)|)
    && st.keepPrinting == PrintingAfter(lines, keep)
  }

  lemma CanRunSnoc(lines: seq<DeltaLine>, keep: map<string, seq<nat>>, headers: map<string, seq<DeltaLine>>)
    requires |lines| > 0
    ensures var prefix := lines[..|lines| - 1]; var last := lines[|lines| - 1];
      CanRun(lines, keep, headers) <==>
        && CanRun(prefix, keep, headers)
        && (last.Alignment? ==> LastHeader(prefix).Some?)
        && (last.Header? ==> HeaderLookupsSucceed(last.queryName, keep, headers))
  {
    AlignmentsFollowHeadersSnoc(lines);
    HeaderQueriesSnoc(lines);
  }

  lemma FilterHeaderStep(st: FilterState, lines: seq<DeltaLine>, keep: map<string, seq<nat>>, headers: map<string, seq<DeltaLine>>)
    requires |lines| > 0 && lines[|lines| - 1].Header?
    requires AlignmentsFollowHeaders(lines[..|lines| - 1])
    requires Tracks(st, lines[..|lines| - 1], keep)
    ensures var r := FilterStep(st, lines[|lines| - 1], |lines| - 1, keep, headers);
      && (r.Ok? <==> HeaderLookupsSucceed(lines[|lines| - 1].queryName, keep, headers))
      && (r.Ok? ==> Tracks(r.value, lines, keep))
  {
    var prefix := lines[..|lines| - 1];
    var last := lines[|lines| - 1];
    HeaderQueriesSnoc(lines);
    var r := FilterStep(st, last, |lines| - 1, keep, headers);
    if r.Ok? {
      forall q | q in r.value.counter ensures r.value.counter[q] == |IntervalsOf(lines, q)| {
        if q !in st.counter {
          NoIntervalsWithoutHeader(prefix, q);
        }
      }
    }
  }

  lemma FilterAlignmentStep(st: FilterState, lines: seq<DeltaLine>, keep: map<string, seq<nat>>, headers: map<string, seq<DeltaLine>>)
    requires |lines| > 0 && lines[|lines| - 1].Alignment?
    requires CanRun(lines[..|lines| - 1], keep, headers)
    requires Tracks(st, lines[..|lines| - 1], keep)
    ensures var r := FilterStep(st, lines[|lines| - 1], |lines| - 1, keep, headers);
      && (r.Ok? <==> LastHeader(lines[..|lines| - 1]).Some?)
      && (r.Ok? ==> Tracks(r.value, lines, keep))
  {
    var prefix := lines[..|lines| - 1];
    HeaderQueriesSnoc(lines);
    if LastHeader(prefix).Some? {
      CurrentQueryIsHeaderQuery(prefix);
    }
  }

  lemma FilterOtherStep(st: FilterState, lines: seq<DeltaLine>, keep: map<string, seq<nat>>, headers: map<string, seq<DeltaLine>>)
    requires |lines| > 0 && lines[|lines| - 1].Other?
    requires Tracks(st, lines[..|lines| - 1], keep)
    ensures var r := FilterStep(st, lines[|lines| - 1], |lines| - 1, keep, headers);
      r.Ok? && Tracks(r.value, lines, keep)
  {
    HeaderQueriesSnoc(lines);
  }

  /**
   * The second pass fails exactly when some lookup would miss: an alignment
   * before every header, a header query absent from the keep lists, or a
   * kept index past the query's header list. Otherwise its state follows the
   * reference description: the last header, its keep list, per query the
   * number of alignments seen, and whether the latest alignment was unique.
   */
  lemma {:induction false} FilterSpec(lines: seq<DeltaLine>, keep: map<string, seq<nat>>, headers: map<string, seq<DeltaLine>>)
    ensures Filter(lines, keep, headers).Ok? <==> CanRun(lines, keep, headers)
    ensures Filter(lines, keep, headers).Ok? ==> Tracks(Filter(lines, keep, headers).value, lines, keep)
  {
    var n := |lines|;
    if n == 0 {
      assert HeaderQueries(lines) == {};
    } else {
      var prefix := lines[..n - 1];
      FilterSpec(prefix, keep, headers);
      CanRunSnoc(lines, keep, headers);
      if Filter(prefix, keep, headers).Ok? {
        var st := Filter(prefix, keep, headers).value;
        match lines[n - 1]
        case Header(_, _, _, _) => FilterHeaderStep(st, lines, keep, headers);
        case Alignment(_, _, _, _) => FilterAlignmentStep(st, lines, keep, headers);
        case Other => FilterOtherStep(st, lines, keep, headers);
      }
    }
  }

  // ---------------------------------------------------------------------------
  // Rows, copied lines and lengths

  /** The number of alignment lines in `lines`. */
  function AlignmentCount(lines: seq<DeltaLine>): (n: nat)
    ensures n <= |lines|
  {
    if |lines| == 0 then 0
    else AlignmentCount(lines[..|lines| - 1]) + (if lines[|lines| - 1].Alignment? then 1 else 0)
  }

  /** The reference names of all headers of `lines`. */
  function RefNames(lines: seq<DeltaLine>): set<string> {
    set i | 0 <= i < |lines| && lines[i].Header? :: lines[i].refName
  }

  lemma RefNamesSnoc(lines: seq<DeltaLine>)
    requires |lines| > 0
    ensures RefNames(lines) ==
      RefNames(lines[..|lines| - 1]) + (if lines[|lines| - 1].Header? then {lines[|lines| - 1].refName} else {})
  {
    var n := |lines|;
    var prefix := lines[..n - 1];
    forall r | r in RefNames(lines)
      ensures r in RefNames(prefix) + (if lines[n - 1].Header? then {lines[n - 1].refName} else {})
    {
      var i :| 0 <= i < n && lines[i].Header? && lines[i].refName == r;
      if i < n - 1 {
        assert prefix[i] == lines[i];
      }
    }
    forall r | r in RefNames(prefix) ensures r in RefNames(lines) {
      var i :| 0 <= i < n - 1 && prefix[i].Header? && prefix[i].refName == r;
      assert lines[i] == prefix[i];
    }
  }

  /**
   * The coordinates row of an alignment line after `prefix`: the line's
   * coordinates, the sizes and names of the header in force, and the tag.
   */
  function RowFor(prefix: seq<DeltaLine>, a: DeltaLine, keep: map<string, seq<nat>>): CoordRow
    requires a.Alignment? && LastHeader(prefix).Some?
  {
    var h := LastHeader(prefix).value;
    CoordRow(a.refStart, a.refEnd, a.queryStart, a.queryEnd, h.refLength, h.queryLength, h.refName, h.queryName,
             if UniqueAt(prefix, keep) then Unique else Repetitive)
  }

  /**
   * Whether the line after `prefix` is copied to the filtered delta file: a
   * header when some kept alignment of its query was recorded under it, an
   * alignment when it is unique, any other line when the latest alignment
   * was unique.
   */
  ghost predicate WrittenAt(prefix: seq<DeltaLine>, line: DeltaLine, keep: map<string, seq<nat>>,
                            headers: map<string, seq<DeltaLine>>) {
    match line
    case Header(_, q, _, _) =>
      && q in keep && q in headers
      && (forall i :: 0 <= i < |keep[q]| ==> keep[q][i] < |headers[q]|)
      && HeaderNeeded(line, keep[q], headers[q])
    case Alignment(_, _, _, _) => UniqueAt(prefix, keep)
    case Other => PrintingAfter(prefix, keep)
  }

  /** One step adds the row of an alignment line and nothing else to the rows. */
  ghost predicate RowsAdded(st: FilterState, st': FilterState, prefix: seq<DeltaLine>, last: DeltaLine,
                            keep: map<string, seq<nat>>)
    requires last.Alignment? ==> LastHeader(prefix).Some?
  {
    st'.rows == st.rows + (if last.Alignment? then [RowFor(prefix, last, keep)] else [])
  }

  /** One step copies its line exactly when `WrittenAt` says so. */
  ghost predicate WrittenAdded(st: FilterState, st': FilterState, prefix: seq<DeltaLine>, last: DeltaLine, index: nat,
                               keep: map<string, seq<nat>>, headers: map<string, seq<DeltaLine>>)
  {
    st'.written == st.written + (if WrittenAt(prefix, last, keep, headers) then [index] else [])
  }

  /** One step records a header's lengths for names not seen before. */
  ghost predicate LengthsAdded(st: FilterState, st': FilterState, last: DeltaLine) {
    && st'.refSeen == st.refSeen + (if last.Header? then {last.refName} else {})
    && st'.refLengths == st.refLengths + (if last.Header? && last.refName !in st.refSeen then [last.refLength] else [])
    && st'.querySeen == st.querySeen + (if last.Header? then {last.queryName} else {})
    && st'.queryLengths == st.queryLengths + (if last.Header? && last.queryName !in st.querySeen then [last.queryLength] else [])
  }

  ghost predicate StepAdds(st: FilterState, st': FilterState, prefix: seq<DeltaLine>, last: DeltaLine, index: nat,
                           keep: map<string, seq<nat>>, headers: map<string, seq<DeltaLine>>)
    requires last.Alignment? ==> LastHeader(prefix).Some?
  {
    && RowsAdded(st, st', prefix, last, keep)
    && WrittenAdded(st, st', prefix, last, index, keep, headers)
    && LengthsAdded(st, st', last)
  }

  lemma HeaderAdds(st: FilterState, prefix: seq<DeltaLine>, last: DeltaLine, index: nat,
                   keep: map<string, seq<nat>>, headers: map<string, seq<DeltaLine>>)
    requires last.Header? && HeaderLookupsSucceed(last.queryName, keep, headers)
    ensures FilterStep(st, last, index, keep, headers).Ok?
    ensures StepAdds(st, FilterStep(st, last, index, keep, headers).value, prefix, last, index, keep, headers)
  {
  }

  lemma AlignmentAdds(st: FilterState, prefix: seq<DeltaLine>, last: DeltaLine, index: nat,
                      keep: map<string, seq<nat>>, headers: map<string, seq<DeltaLine>>)
    requires last.Alignment? && LastHeader(prefix).Some? && CurrentQuery(prefix) in keep
    requires Tracks(st, prefix, keep)
    requires FilterStep(st, last, index, keep, headers).Ok?
    ensures StepAdds(st, FilterStep(st, last, index, keep, headers).value, prefix, last, index, keep, headers)
  {
  }

  lemma OtherAdds(st: FilterState, prefix: seq<DeltaLine>, last: DeltaLine, index: nat,
                  keep: map<string, seq<nat>>, headers: map<string, seq<DeltaLine>>)
    requires last.Other?
    requires Tracks(st, prefix, keep)
    ensures FilterStep(st, last, index, keep, headers).Ok?
    ensures StepAdds(st, FilterStep(st, last, index, keep, headers).value, prefix, last, index, keep, headers)
  {
  }

  /** What reading the last line adds to the rows, copied lines and length lists. */
  lemma FilterStepEffect(lines: seq<DeltaLine>, keep: map<string, seq<nat>>, headers: map<string, seq<DeltaLine>>)
    requires |lines| > 0
    requires CanRun(lines, keep, headers)
    ensures CanRun(lines[..|lines| - 1], keep, headers)
    ensures lines[|lines| - 1].Alignment? ==> LastHeader(lines[..|lines| - 1]).Some?
    ensures Filter(lines[..|lines| - 1], keep, headers).Ok? && Filter(lines, keep, headers).Ok?
    ensures StepAdds(Filter(lines[..|lines| - 1], keep, headers).value, Filter(lines, keep, headers).value,
                     lines[..|lines| - 1], lines[|lines| - 1], |lines| - 1, keep, headers)
  {
    var prefix := lines[..|lines| - 1];
    var last := lines[|lines| - 1];
    CanRunSnoc(lines, keep, headers);
    FilterSpec(prefix, keep, headers);
    FilterSpec(lines, keep, headers);
    var st := Filter(prefix, keep, headers).value;
    assert Filter(lines, keep, headers) == FilterStep(st, last, |lines| - 1, keep, headers);
    match last
    case Header(_, _, _, _) => HeaderAdds(st, prefix, last, |lines| - 1, keep, headers);
    case Alignment(_, _, _, _) =>
      CurrentQueryIsHeaderQuery(prefix);
      AlignmentAdds(st, prefix, last, |lines| - 1, keep, headers);
    case Other => OtherAdds(st, prefix, last, |lines| - 1, keep, headers);
  }

  lemma FilterStepRows(lines: seq<DeltaLine>, keep: map<string, seq<nat>>, headers: map<string, seq<DeltaLine>>)
    requires |lines| > 0
    requires CanRun(lines, keep, headers)
    ensures CanRun(lines[..|lines| - 1], keep, headers)
    ensures lines[|lines| - 1].Alignment? ==> LastHeader(lines[..|lines| - 1]).Some?
    ensures Filter(lines[..|lines| - 1], keep, headers).Ok? && Filter(lines, keep, headers).Ok?
    ensures RowsAdded(Filter(lines[..|lines| - 1], keep, headers).value, Filter(lines, keep, headers).value,
                      lines[..|lines| - 1], lines[|lines| - 1], keep)
  {
    FilterStepEffect(lines, keep, headers);
  }

  lemma FilterStepWritten(lines: seq<DeltaLine>, keep: map<string, seq<nat>>, headers: map<string, seq<DeltaLine>>)
    requires |lines| > 0
    requires CanRun(lines, keep, headers)
    ensures CanRun(lines[..|lines| - 1], keep, headers)
    ensures Filter(lines[..|lines| - 1], keep, headers).Ok? && Filter(lines, keep, headers).Ok?
    ensures WrittenAdded(Filter(lines[..|lines| - 1], keep, headers).value, Filter(lines, keep, headers).value,
                         lines[..|lines| - 1], lines[|lines| - 1], |lines| - 1, keep, headers)
  {
    FilterStepEffect(lines, keep, headers);
  }

  lemma FilterStepLengths(lines: seq<DeltaLine>, keep: map<string, seq<nat>>, headers: map<string, seq<DeltaLine>>)
    requires |lines| > 0
    requires CanRun(lines, keep, headers)
    ensures CanRun(lines[..|lines| - 1], keep, headers)
    ensures Filter(lines[..|lines| - 1], keep, headers).Ok? && Filter(lines, keep, headers).Ok?
    ensures LengthsAdded(Filter(lines[..|lines| - 1], keep, headers).value, Filter(lines, keep, headers).value,
                         lines[|lines| - 1])
  {
    FilterStepEffect(lines, keep, headers);
  }

  /**
   * The coordinates table has one row per alignment line, in file order: the
   * row of alignment line `j` sits after the rows of the alignments before it.
   */
  lemma {:induction false} FilterRows(lines: seq<DeltaLine>, keep: map<string, seq<nat>>, headers: map<string, seq<DeltaLine>>)
    requires CanRun(lines, keep, headers)
    ensures Filter(lines, keep, headers).Ok?
    ensures |Filter(lines, keep, headers).value.rows| == AlignmentCount(lines)
    ensures forall j :: 0 <= j < |lines| && lines[j].Alignment? ==>
      AlignmentCount(lines[..j]) < AlignmentCount(lines) &&
      Filter(lines, keep, headers).value.rows[AlignmentCount(lines[..j])] == RowFor(lines[..j], lines[j], keep)
  {
    FilterSpec(lines, keep, headers);
    var n := |lines|;
    if n > 0 {
      var prefix := lines[..n - 1];
      FilterStepRows(lines, keep, headers);
      FilterRows(prefix, keep, headers);
      var rows := Filter(lines, keep, headers).value.rows;
      forall j | 0 <= j < n && lines[j].Alignment?
        ensures AlignmentCount(lines[..j]) < AlignmentCount(lines) && rows[AlignmentCount(lines[..j])] == RowFor(lines[..j], lines[j], keep)
      {
        if j < n - 1 {
          assert lines[..j] == prefix[..j] && lines[j] == prefix[j];
        } else {
          assert lines[..j] == prefix;
        }
      }
    }
  }

  /** The filtered delta file lists the indices of copied body lines in file order. */
  lemma {:induction false} FilterWrittenOrdered(lines: seq<DeltaLine>, keep: map<string, seq<nat>>, headers: map<string, seq<DeltaLine>>)
    requires CanRun(lines, keep, headers)
    ensures Filter(lines, keep, headers).Ok?
    ensures StrictlyIncreasing(Filter(lines, keep, headers).value.written)
    ensures forall i :: 0 <= i < |Filter(lines, keep, headers).value.written| ==>
      Filter(lines, keep, headers).value.written[i] < |lines|
  {
    if |lines| > 0 {
      FilterStepWritten(lines, keep, headers);
      FilterWrittenOrdered(lines[..|lines| - 1], keep, headers);
    }
  }

  /**
   * The filtered delta file holds exactly the body lines the reference rule
   * `WrittenAt` selects.
   */
  lemma {:induction false} FilterWritten(lines: seq<DeltaLine>, keep: map<string, seq<nat>>, headers: map<string, seq<DeltaLine>>)
    requires CanRun(lines, keep, headers)
    ensures Filter(lines, keep, headers).Ok?
    ensures forall j :: 0 <= j < |lines| ==>
      (j in Filter(lines, keep, headers).value.written <==> WrittenAt(lines[..j], lines[j], keep, headers))
  {
    var n := |lines|;
    if n > 0 {
      var prefix := lines[..n - 1];
      FilterStepWritten(lines, keep, headers);
      FilterWritten(prefix, keep, headers);
      FilterWrittenOrdered(prefix, keep, headers);
      var written := Filter(lines, keep, headers).value.written;
      forall j | 0 <= j < n
        ensures j in written <==> WrittenAt(lines[..j], lines[j], keep, headers)
      {
        if j < n - 1 {
          assert lines[..j] == prefix[..j] && lines[j] == prefix[j];
        } else {
          assert lines[..j] == prefix;
        }
      }
    }
  }

  /** The statistics see every reference name of a header, and record one length per distinct name. */
  lemma {:induction false} FilterRefSeen(lines: seq<DeltaLine>, keep: map<string, seq<nat>>, headers: map<string, seq<DeltaLine>>)
    requires CanRun(lines, keep, headers)
    ensures Filter(lines, keep, headers).Ok?
    ensures Filter(lines, keep, headers).value.refSeen == RefNames(lines)
    ensures |Filter(lines, keep, headers).value.refLengths| == |RefNames(lines)|
  {
    if |lines| == 0 {
      assert RefNames(lines) == {};
    } else {
      FilterStepLengths(lines, keep, headers);
      FilterRefSeen(lines[..|lines| - 1], keep, headers);
      RefNamesSnoc(lines);
    }
  }

  /**
   * Reference list of reference lengths: in file order, the length given by
   * each header whose reference name no earlier header carries.
   */
  function FirstRefLengths(lines: seq<DeltaLine>): seq<int> {
    if |lines| == 0 then []
    else
      var prefix := lines[..|lines| - 1];
      var last := lines[|lines| - 1];
      FirstRefLengths(prefix) + (if last.Header? && last.refName !in RefNames(prefix) then [last.refLength] else [])
  }

  /**
   * The recorded reference lengths are, in first-seen order, the length of
   * each reference sequence as given by the first header naming it.
   */
  lemma {:induction false} FilterRefLengths(lines: seq<DeltaLine>, keep: map<string, seq<nat>>, headers: map<string, seq<DeltaLine>>)
    requires CanRun(lines, keep, headers)
    ensures Filter(lines, keep, headers).Ok?
    ensures Filter(lines, keep, headers).value.refLengths == FirstRefLengths(lines)
  {
    if |lines| > 0 {
      var prefix := lines[..|lines| - 1];
      FilterStepLengths(lines, keep, headers);
      FilterRefLengths(prefix, keep, headers);
      FilterRefSeen(prefix, keep, headers);
    }
  }

  /** The statistics see every query name of a header, and record one length per distinct name. */
  lemma {:induction false} FilterQuerySeen(lines: seq<DeltaLine>, keep: map<string, seq<nat>>, headers: map<string, seq<DeltaLine>>)
    requires CanRun(lines, keep, headers)
    ensures Filter(lines, keep, headers).Ok?
    ensures Filter(lines, keep, headers).value.querySeen == HeaderQueries(lines)
    ensures |Filter(lines, keep, headers).value.queryLengths| == |HeaderQueries(lines)|
  {
    if |lines| == 0 {
      assert HeaderQueries(lines) == {};
    } else {
      FilterStepLengths(lines, keep, headers);
      FilterQuerySeen(lines[..|lines| - 1], keep, headers);
      HeaderQueriesSnoc(lines);
    }
  }

  /**
   * Reference list of query lengths: in file order, the length given by each
   * header whose query name no earlier header carries.
   */
  function FirstQueryLengths(lines: seq<DeltaLine>): seq<int> {
    if |lines| == 0 then []
    else
      var prefix := lines[..|lines| - 1];
      var last := lines[|lines| - 1];
      FirstQueryLengths(prefix) + (if last.Header? && last.queryName !in HeaderQueries(prefix) then [last.queryLength] else [])
  }

  /**
   * The recorded query lengths are, in first-seen order, the length of each
   * query sequence as given by the first header naming it.
   */
  lemma {:induction false} FilterQueryLengths(lines: seq<DeltaLine>, keep: map<string, seq<nat>>, headers: map<string, seq<DeltaLine>>)
    requires CanRun(lines, keep, headers)
    ensures Filter(lines, keep, headers).Ok?
    ensures Filter(lines, keep, headers).value.queryLengths == FirstQueryLengths(lines)
  {
    if |lines| > 0 {
      var prefix := lines[..|lines| - 1];
      FilterStepLengths(lines, keep, headers);
      FilterQueryLengths(prefix, keep, headers);
      FilterQuerySeen(prefix, keep, headers);
    }
  }

}

=== FILE: format.dfy ===
/**
 * The integer helpers of DotPrep.py used by the assembly statistics:
 * `intWithCommas` (lines 269-278) renders an integer with thousands
 * separators, `N50` (lines 244-252) picks the length at which the running
 * sum from the largest length down reaches half the total.
 */
module Format {
  import opened Wrappers

  /**
   * A Python 2 value handed to `intWithCommas`: its type check accepts
   * exactly `int` and `long`; anything else (a float, a string, and also a
   * bool, whose type is not `int`) is `NonInteger`.
   */
  datatype PyValue = PyInt(n: int) | PyLong(n: int) | NonInteger

  datatype TypeError = TypeError(message: string)

  predicate IsDigit(c: char) {
    '0' <= c <= '9'
  }

  predicate AllDigits(s: string) {
    forall i :: 0 <= i < |s| ==> IsDigit(s[i])
  }

  function Digit(d: nat): (c: char)
    requires d < 10
    ensures IsDigit(c)
    ensures c as int - 48 == d
  {
    (48 + d) as char
  }

  /** The value of a string of decimal digits, most significant first. */
  function Value(s: string): nat
    requires AllDigits(s)
  {
    if |s| == 0 then 0
    else Value(s[..|s| - 1]) * 10 + (s[|s| - 1] as int - 48)
  }

  /** The decimal numeral of `n`, as `"%d"` writes it. */
  function Decimal(n: nat): (s: string)
    ensures AllDigits(s)
    ensures |s| >= 1
    ensures s[0] != '0' || n == 0
    ensures n == 0 ==> s == "0"
  {
    if n < 10 then [Digit(n)] else Decimal(n / 10) + [Digit(n % 10)]
  }

  /** The three-digit zero-padded numeral of `r`, as `"%03d"` writes it. */
  function Pad3(r: nat): (s: string)
    requires r < 1000
    ensures |s| == 3 && AllDigits(s)
    ensures Value(s) == r
  {
    var s := [Digit(r / 100), Digit(r / 10 % 10), Digit(r % 10)];
    assert s[..2][..1] == [s[0]] && s[..1][..0] == [] && s[..2] == [s[0], s[1]];
    assert Value(s[..1]) == r / 100;
    assert Value(s[..2]) == r / 100 * 10 + r / 10 % 10 == r / 10;
    assert Value(s) == r / 10 * 10 + r % 10 == r;
    s
  }

  /** Reference rendering: the leading group, then a comma and three digits per further thousand. */
  function Grouped(x: nat): string
    decreases x
  {
    if x < 1000 then Decimal(x) else Grouped(x / 1000) + "," + Pad3(x % 1000)
  }

  /** The string with its commas removed. */
  function StripCommas(s: string): (r: string)
    ensures |r| <= |s|
  {
    if |s| == 0 then ""
    else StripCommas(s[..|s| - 1]) + (if s[|s| - 1] == ',' then "" else [s[|s| - 1]])
  }

  /**
   * A well-grouped numeral: one to three digits, or a well-grouped numeral
   * followed by a comma and exactly three digits.
   */
  ghost predicate WellGrouped(s: string) {
    if |s| <= 3 then 1 <= |s| && AllDigits(s)
    else |s| >= 5 && s[|s| - 4] == ',' && AllDigits(s[|s| - 3..]) && WellGrouped(s[..|s| - 4])
  }

  /**
   * The non-negative branch of `intWithCommas`: peel off thousands while the
   * value is at least 1000, prefixing each remainder as `,%03d`.
   */
  method GroupThousands(x: nat) returns (s: string)
    ensures s == Grouped(x)
  {
    var rest := x;
    var result := "";
    while rest >= 1000
      invariant Grouped(x) == Grouped(rest) + result
      decreases rest
    {
      var r := rest % 1000;
      assert Grouped(rest) == Grouped(rest / 1000) + "," + Pad3(r);
      result := "," + Pad3(r) + result;
      rest := rest / 1000;
    }
    s := Decimal(rest) + result;
  }

  /** The rendering of any integer: a minus sign and the rendering of its magnitude when negative. */
  function Commas(x: int): string {
    if x < 0 then "-" + Grouped(-x) else Grouped(x)
  }

  /** Reads back a rendering: an optional minus sign, then digits and commas. */
  function Parse(s: string): Option<int> {
    if |s| > 0 && s[0] == '-' then
      if AllDigits(StripCommas(s[1..])) then Some(0 - Value(StripCommas(s[1..]))) else None
    else if AllDigits(StripCommas(s)) then Some(Value(StripCommas(s)))
    else None
  }

  /**
   * `intWithCommas`: a type error for anything but an integer, otherwise the
   * rendering, which reads back to the integer and is well grouped after an
   * optional minus sign.
   */
  method IntWithCommas(v: PyValue) returns (r: Result<string, TypeError>)
    ensures v.NonInteger? <==> r.Err?
    ensures r.Ok? ==> Parse(r.value) == Some(v.n)
    ensures r.Ok? && v.n >= 0 ==> WellGrouped(r.value)
    ensures r.Ok? && v.n < 0 ==> r.value[0] == '-' && WellGrouped(r.value[1..])
    ensures r.Ok? && 0 <= v.n < 1000 ==> r.value == Decimal(v.n)
    ensures r.Ok? ==> r.value == Commas(v.n)
    ensures r.Ok? && v.n < 0 ==> r.value == "-" + Commas(-v.n)
    ensures r.Ok? && v.n >= 0 ==> StripCommas(r.value) == Decimal(v.n)
    ensures r.Ok? && v.n < 0 ==> StripCommas(r.value[1..]) == Decimal(-v.n)
  {
    if v.NonInteger? {
      return Err(TypeError("Parameter must be an integer."));
    }
    var x := v.n;
    var s;
    if x < 0 {
      s := GroupThousands(-x);
      s := "-" + s;
      assert s[1..] == Grouped(-x);
      StripGrouped(-x);
    } else {
      s := GroupThousands(x);
      StripGrouped(x);
    }
    CommasRoundTrip(x);
    CommasShape(x);
    return Ok(s);
  }

  // ---------------------------------------------------------------------------
  // Lemmas about the rendering

  lemma {:induction false} StripCommasAppend(a: string, b: string)
    ensures StripCommas(a + b) == StripCommas(a) + StripCommas(b)
    decreases |b|
  {
    if |b| == 0 {
      assert a + b == a;
    } else {
      assert (a + b)[..|a + b| - 1] == a + b[..|b| - 1];
      StripCommasAppend(a, b[..|b| - 1]);
    }
  }

  lemma {:induction false} StripCommasOfDigits(s: string)
    requires AllDigits(s)
    ensures StripCommas(s) == s
  {
    if |s| > 0 {
      StripCommasOfDigits(s[..|s| - 1]);
    }
  }

  lemma ValueOfLastDigit(s: string, c: char)
    requires AllDigits(s) && IsDigit(c)
    ensures AllDigits(s + [c]) && Value(s + [c]) == Value(s) * 10 + (c as int - 48)
  {
    assert (s + [c])[..|s|] == s;
  }

  /** Reading a numeral back gives the number. */
  lemma {:induction false} DecimalValue(n: nat)
    ensures Value(Decimal(n)) == n
  {
    if n >= 10 {
      DecimalValue(n / 10);
      ValueOfLastDigit(Decimal(n / 10), Digit(n % 10));
    }
  }

  /** The numeral of `a * 1000 + r` with `a > 0` is the numeral of `a` then three digits for `r`. */
  lemma DecimalThousands(a: nat, r: nat)
    requires a > 0 && r < 1000
    ensures Decimal(a * 1000 + r) == Decimal(a) + Pad3(r)
  {
    var h, t, u := r / 100, r / 10 % 10, r % 10;
    var n := a * 1000 + r;
    assert n == 10 * (a * 100 + r / 10) + u;
    assert n / 10 == a * 100 + r / 10 && n % 10 == u;
    assert a * 100 + r / 10 == 10 * (a * 10 + h) + t;
    assert (a * 100 + r / 10) / 10 == a * 10 + h && (a * 100 + r / 10) % 10 == t;
    assert (a * 10 + h) / 10 == a && (a * 10 + h) % 10 == h;
    assert Decimal(a * 10 + h) == Decimal(a) + [Digit(h)];
    assert Decimal(a * 100 + r / 10) == Decimal(a) + [Digit(h)] + [Digit(t)];
  }

  /** Removing the commas from the rendering of `x` gives the numeral of `x`. */
  lemma {:induction false} StripGrouped(x: nat)
    ensures StripCommas(Grouped(x)) == Decimal(x)
    decreases x
  {
    if x < 1000 {
      StripCommasOfDigits(Decimal(x));
    } else {
      var a, r := x / 1000, x % 1000;
      StripGrouped(a);
      StripSeparated(Grouped(a), Pad3(r));
      DecimalThousands(a, r);
    }
  }

  /** Removing the commas from `g + "," + p` for digits `p` gives the stripped `g` then `p`. */
  lemma StripSeparated(g: string, p: string)
    requires AllDigits(p)
    ensures StripCommas(g + "," + p) == StripCommas(g) + p
  {
    var gc := g + ",";
    StripCommasAppend(gc, p);
    StripCommasAppend(g, ",");
    assert ","[..0] == "";
    assert StripCommas(",") == "";
    StripCommasOfDigits(p);
    assert StripCommas(gc) == StripCommas(g);
  }

  /** The rendering of a non-negative number reads back to it. */
  lemma ParseGrouped(x: nat)
    ensures Parse(Grouped(x)) == Some(x)
  {
    GroupedStartsWithDigit(x);
    StripGrouped(x);
    DecimalValue(x);
  }

  /** The rendering of an integer reads back to that integer. */
  lemma CommasRoundTrip(x: int)
    ensures Parse(Commas(x)) == Some(x)
  {
    if x < 0 {
      ParseMinusGrouped(-x);
    } else {
      ParseGrouped(x);
    }
  }

  /** A minus sign before the rendering of `m` reads back to `-m`. */
  lemma ParseMinusGrouped(m: nat)
    ensures Parse("-" + Grouped(m)) == Some(0 - m)
  {
    var s := "-" + Grouped(m);
    assert s[1..] == Grouped(m);
    StripGrouped(m);
    DecimalValue(m);
  }

  /** The rendering of a non-negative number starts with a digit. */
  lemma {:induction false} GroupedStartsWithDigit(x: nat)
    ensures |Grouped(x)| > 0 && IsDigit(Grouped(x)[0])
    decreases x
  {
    if x >= 1000 {
      GroupedStartsWithDigit(x / 1000);
    }
  }

  /** The rendering of a non-negative number is well grouped. */
  lemma {:induction false} GroupedShape(x: nat)
    ensures WellGrouped(Grouped(x))
    decreases x
  {
    if x < 1000 {
      DecimalShort(x);
    } else {
      var g := Grouped(x / 1000);
      var s := Grouped(x);
      GroupedShape(x / 1000);
      GroupedStartsWithDigit(x / 1000);
      assert s == g + "," + Pad3(x % 1000);
      assert s[..|s| - 4] == g;
      assert s[|s| - 3..] == Pad3(x % 1000);
    }
  }

  /** Numbers below 1000 have at most three digits. */
  lemma DecimalShort(x: nat)
    requires x < 1000
    ensures |Decimal(x)| <= 3
  {
    if x >= 10 {
      assert |Decimal(x)| == |Decimal(x / 10)| + 1;
      if x / 10 >= 10 {
        assert |Decimal(x / 10)| == |Decimal(x / 10 / 10)| + 1;
        assert x / 10 / 10 < 10;
      }
    }
  }

  lemma CommasShape(x: int)
    ensures x >= 0 ==> WellGrouped(Commas(x))
    ensures x < 0 ==> Commas(x)[0] == '-' && WellGrouped(Commas(x)[1..])
  {
    if x < 0 {
      var g := Grouped(-x);
      GroupedShape(-x);
      assert Commas(x) == "-" + g;
      assert ("-" + g)[1..] == g;
    } else {
      GroupedShape(x);
      assert Commas(x) == Grouped(x);
    }
  }

  // ---------------------------------------------------------------------------
  // N50

  function Sum(s: seq<int>): int {
    if |s| == 0 then 0 else s[0] + Sum(s[1..])
  }

  lemma {:induction false} SumNonNegative(s: seq<int>)
    requires forall k :: 0 <= k < |s| ==> s[k] >= 0
    ensures Sum(s) >= 0
  {
    if |s| > 0 {
      SumNonNegative(s[1..]);
    }
  }

  /** The lengths from index `i` on sum to at least half the total (floor division). */
  ghost predicate ReachesHalf(lengths: seq<int>, i: int)
    requires 0 <= i <= |lengths|
  {
    Sum(lengths[i..]) >= Sum(lengths) / 2
  }

  /** Index `i` is where the scan from the largest length down first reaches half the total. */
  ghost predicate IsN50At(lengths: seq<int>, i: int)
    requires 0 <= i < |lengths|
  {
    ReachesHalf(lengths, i) && forall j :: i < j < |lengths| ==> !ReachesHalf(lengths, j)
  }

  /**
   * `N50`: scanning from the last (largest) length down, the first length at
   * which the running sum reaches half the total (floor division, as Python
   * 2 divides integers). `None` when the running sum never gets there.
   */
  method N50(lengths: seq<int>) returns (r: Option<int>)
    ensures r.Some? <==> exists i :: 0 <= i < |lengths| && ReachesHalf(lengths, i)
    ensures r.Some? ==> exists i :: 0 <= i < |lengths| && IsN50At(lengths, i) && r.value == lengths[i]
    ensures |lengths| > 0 && (forall k :: 0 <= k < |lengths| ==> lengths[k] >= 0) ==> r.Some? && r.value in lengths
  {
    var half := Sum(lengths) / 2;
    var cumsum := 0;
    var i := |lengths|;
    if |lengths| > 0 && (forall k :: 0 <= k < |lengths| ==> lengths[k] >= 0) {
      SumNonNegative(lengths);
      assert lengths[0..] == lengths;
      assert ReachesHalf(lengths, 0);
    }
    while i > 0
      invariant 0 <= i <= |lengths|
      invariant cumsum == Sum(lengths[i..])
      invariant forall j :: i <= j < |lengths| ==> !ReachesHalf(lengths, j)
    {
      i := i - 1;
      assert lengths[i..][1..] == lengths[i + 1..];
      cumsum := cumsum + lengths[i];
      if cumsum >= half {
        assert IsN50At(lengths, i);
        return Some(lengths[i]);
      }
    }
    return None;
  }
}

=== FILE: pipeline.dfy ===
/**
 * The two passes of DotPrep.py composed as `run` composes them (lines
 * 115-130): the first pass's groups feed `decideAlignmentsToKeep`, whose keep
 * lists and the first pass's header lists feed the second pass.
 */
module Pipeline {
  import opened BinarySearch
  import opened PlaneSweep
  import opened Delta
  import opened Filtering

  /** Every interval the first pass records for a query has its ends in order. */
  lemma {:induction false} IntervalsWellFormed(lines: seq<DeltaLine>, q: string)
    ensures WellFormed(IntervalsOf(lines, q))
  {
    if |lines| > 0 {
      IntervalsWellFormed(lines[..|lines| - 1], q);
    }
  }

  /** Reading more lines only appends to a query's interval and header lists. */
  lemma {:induction false} IntervalsOfPrefix(lines: seq<DeltaLine>, j: nat, q: string)
    requires j <= |lines|
    ensures IntervalsOf(lines[..j], q) <= IntervalsOf(lines, q)
    ensures HeadersOf(lines[..j], q) <= HeadersOf(lines, q)
  {
    if j < |lines| {
      var prefix := lines[..|lines| - 1];
      IntervalsOfPrefix(prefix, j, q);
      assert prefix[..j] == lines[..j];
    } else {
      assert lines[..j] == lines;
    }
  }

  /**
   * The ordinal of alignment line `j` (the number of earlier alignments of
   * its query) is the position of its interval in the first pass's list for
   * that query, and of its header in the header list.
   */
  lemma OrdinalLocates(lines: seq<DeltaLine>, j: nat)
    requires j < |lines| && lines[j].Alignment?
    ensures var q := CurrentQuery(lines[..j]); var k := |IntervalsOf(lines[..j], q)|;
      && k < |IntervalsOf(lines, q)|
      && IntervalsOf(lines, q)[k] == Normalize(lines[j])
      && HeadersOf(lines, q)[k] == HeaderInForce(lines[..j])
  {
    var q := CurrentQuery(lines[..j]);
    IntervalsOfPrefix(lines, j + 1, q);
    assert lines[..j + 1][..j] == lines[..j];
  }

  /** Every position of a query's list is the ordinal of some alignment line of that query. */
  lemma {:induction false} OrdinalOnto(lines: seq<DeltaLine>, q: string, k: nat)
    requires k < |IntervalsOf(lines, q)|
    ensures exists j :: (0 <= j < |lines| && lines[j].Alignment? && CurrentQuery(lines[..j]) == q
      && |IntervalsOf(lines[..j], q)| == k)
  {
    var n := |lines|;
    var prefix := lines[..n - 1];
    if k < |IntervalsOf(prefix, q)| {
      OrdinalOnto(prefix, q, k);
      var j :| 0 <= j < n - 1 && prefix[j].Alignment? && CurrentQuery(prefix[..j]) == q
        && |IntervalsOf(prefix[..j], q)| == k;
      assert lines[..j] == prefix[..j];
    } else {
      assert lines[..n - 1] == prefix;
    }
  }

  /** The keep lists of the composed passes. */
  function KeepLists(lines: seq<DeltaLine>, uniqueLength: int, keepSmallUniques: bool): map<string, seq<nat>>
    requires Group(lines).Ok?
  {
    DecideAlignmentsToKeep(Group(lines).value.linesByQuery, uniqueLength, keepSmallUniques)
  }

  /**
   * When every alignment line follows a header, both passes run to the end:
   * no dictionary lookup misses and no kept index runs past a header list.
   */
  lemma PipelineRuns(lines: seq<DeltaLine>, uniqueLength: int, keepSmallUniques: bool)
    requires AlignmentsFollowHeaders(lines)
    ensures Group(lines).Ok?
    ensures CanRun(lines, KeepLists(lines, uniqueLength, keepSmallUniques), Group(lines).value.headersByQuery)
    ensures Filter(lines, KeepLists(lines, uniqueLength, keepSmallUniques), Group(lines).value.headersByQuery).Ok?
  {
    GroupSpec(lines);
    var g := Group(lines).value;
    var keep := KeepLists(lines, uniqueLength, keepSmallUniques);
    forall q | q in HeaderQueries(lines) ensures HeaderLookupsSucceed(q, keep, g.headersByQuery) {
    }
    FilterSpec(lines, keep, g.headersByQuery);
  }

  /** Header queries only accumulate as lines are read. */
  lemma HeaderQueriesPrefix(lines: seq<DeltaLine>, j: nat)
    requires j <= |lines|
    ensures HeaderQueries(lines[..j]) <= HeaderQueries(lines)
  {
    forall q | q in HeaderQueries(lines[..j]) ensures q in HeaderQueries(lines) {
      var i :| 0 <= i < j && lines[..j][i].Header? && lines[..j][i].queryName == q;
      assert lines[i] == lines[..j][i];
    }
  }

  /** The keep list of a header query is the plane sweep's decision on its intervals. */
  lemma KeepListOf(lines: seq<DeltaLine>, uniqueLength: int, keepSmallUniques: bool, q: string)
    requires AlignmentsFollowHeaders(lines)
    requires q in HeaderQueries(lines)
    ensures Group(lines).Ok?
    ensures q in KeepLists(lines, uniqueLength, keepSmallUniques)
    ensures KeepLists(lines, uniqueLength, keepSmallUniques)[q] == Summarize(IntervalsOf(lines, q), uniqueLength, keepSmallUniques)
  {
    GroupSpec(lines);
  }

  /** For a query with a single alignment, the decision depends only on its length. */
  lemma SingleAlignmentKept(group: seq<Interval>, uniqueLength: int, keepSmallUniques: bool)
    requires |group| == 1
    ensures 0 in Summarize(group, uniqueLength, keepSmallUniques) <==>
      keepSmallUniques || Abs(group[0].1 - group[0].0) >= uniqueLength
  {
    var r := Summarize(group, uniqueLength, keepSmallUniques);
    if 0 in r {
      if |r| > 1 {
        assert false;
      }
      assert r == [r[0]];
    }
  }

  /** The alignment line `j` is tagged unique exactly when its ordinal is in its query's decision. */
  lemma {:induction false} UniqueIffDecided(lines: seq<DeltaLine>, uniqueLength: int, keepSmallUniques: bool, j: nat)
    requires AlignmentsFollowHeaders(lines)
    requires j < |lines| && lines[j].Alignment?
    ensures Group(lines).Ok?
    ensures var q := CurrentQuery(lines[..j]); var k := |IntervalsOf(lines[..j], q)|;
      UniqueAt(lines[..j], KeepLists(lines, uniqueLength, keepSmallUniques)) <==>
        k in Summarize(IntervalsOf(lines, q), uniqueLength, keepSmallUniques)
  {
    var q := CurrentQuery(lines[..j]);
    assert LastHeader(lines[..j]).Some?;
    CurrentQueryIsHeaderQuery(lines[..j]);
    HeaderQueriesPrefix(lines, j);
    KeepListOf(lines, uniqueLength, keepSmallUniques, q);
  }

  /**
   * The second pass tags alignment line `j` unique exactly when the plane
   * sweep keeps the interval at the line's ordinal in its query's list; with
   * two or more alignments that is the coverage rule `KeepsLine`, with one it
   * is `keepSmallUniques` or a long enough alignment.
   */
  lemma PipelineTags(lines: seq<DeltaLine>, uniqueLength: int, keepSmallUniques: bool, j: nat)
    requires AlignmentsFollowHeaders(lines)
    requires j < |lines| && lines[j].Alignment?
    ensures Group(lines).Ok?
    ensures var q := CurrentQuery(lines[..j]); var k := |IntervalsOf(lines[..j], q)|; var group := IntervalsOf(lines, q);
      && k < |group|
      && group[k] == Normalize(lines[j])
      && (UniqueAt(lines[..j], KeepLists(lines, uniqueLength, keepSmallUniques)) <==>
            k in Summarize(group, uniqueLength, keepSmallUniques))
      && (|group| >= 2 ==>
            (UniqueAt(lines[..j], KeepLists(lines, uniqueLength, keepSmallUniques)) <==>
               KeepsLine(Normalize(lines[j]), UniqueIntervals(group).lefts, UniqueIntervals(group).rights,
                         uniqueLength, keepSmallUniques)))
      && (|group| == 1 ==>
            (UniqueAt(lines[..j], KeepLists(lines, uniqueLength, keepSmallUniques)) <==>
               keepSmallUniques || Abs(lines[j].queryEnd - lines[j].queryStart) >= uniqueLength))
  {
    var q := CurrentQuery(lines[..j]);
    var group := IntervalsOf(lines, q);
    OrdinalLocates(lines, j);
    UniqueIffDecided(lines, uniqueLength, keepSmallUniques, j);
    if |group| == 1 {
      SingleAlignmentKept(group, uniqueLength, keepSmallUniques);
    }
  }

  /**
   * In the composed passes the binary search into a query's recorded
   * intervals never runs past the end, so the unguarded read that follows it
   * always succeeds.
   */
  lemma PipelineSearchInBounds(lines: seq<DeltaLine>, q: string, k: nat)
    requires k < |IntervalsOf(lines, q)|
    ensures var group := IntervalsOf(lines, q); var st := UniqueIntervals(group);
      Search(group[k].0, st.lefts, 0, |st.lefts|) < |st.lefts|
  {
    IntervalsWellFormed(lines, q);
    SearchInBounds(IntervalsOf(lines, q), k);
  }

  /** The header list of a header query is the reference header list. */
  lemma HeaderListOf(lines: seq<DeltaLine>, q: string)
    requires AlignmentsFollowHeaders(lines)
    requires q in HeaderQueries(lines)
    ensures Group(lines).Ok?
    ensures q in Group(lines).value.headersByQuery
    ensures Group(lines).value.headersByQuery[q] == HeadersOf(lines, q)
  {
    GroupSpec(lines);
  }

  /** A unique alignment under an identical header makes the header needed. */
  lemma NeededFromUnique(lines: seq<DeltaLine>, keepList: seq<nat>, q: string, h: DeltaLine, i: nat)
    requires forall x :: 0 <= x < |keepList| ==> keepList[x] < |HeadersOf(lines, q)|
    requires i < |lines| && lines[i].Alignment? && CurrentQuery(lines[..i]) == q
    requires |IntervalsOf(lines[..i], q)| in keepList
    requires HeaderInForce(lines[..i]) == h
    ensures HeaderNeeded(h, keepList, HeadersOf(lines, q))
  {
    OrdinalLocates(lines, i);
    var k := |IntervalsOf(lines[..i], q)|;
    var idx :| 0 <= idx < |keepList| && keepList[idx] == k;
  }

  /** A needed header has a unique alignment under an identical header. */
  lemma UniqueFromNeeded(lines: seq<DeltaLine>, keepList: seq<nat>, q: string, h: DeltaLine)
    requires forall x :: 0 <= x < |keepList| ==> keepList[x] < |HeadersOf(lines, q)|
    requires HeaderNeeded(h, keepList, HeadersOf(lines, q))
    ensures exists i :: (0 <= i < |lines| && lines[i].Alignment? && CurrentQuery(lines[..i]) == q
      && |IntervalsOf(lines[..i], q)| in keepList && HeaderInForce(lines[..i]) == h)
  {
    var idx :| 0 <= idx < |keepList| && HeadersOf(lines, q)[keepList[idx]] == h;
    var k := keepList[idx];
    OrdinalOnto(lines, q, k);
    var i :| 0 <= i < |lines| && lines[i].Alignment? && CurrentQuery(lines[..i]) == q
      && |IntervalsOf(lines[..i], q)| == k;
    OrdinalLocates(lines, i);
  }

  /**
   * A header line is copied to the filtered delta file exactly when some
   * unique alignment of its query sits under a header line identical to it
   * (anywhere in the file, as the comparison is by text).
   */
  lemma PipelineHeaderWritten(lines: seq<DeltaLine>, uniqueLength: int, keepSmallUniques: bool, j: nat)
    requires AlignmentsFollowHeaders(lines)
    requires j < |lines| && lines[j].Header?
    ensures Group(lines).Ok?
    ensures var keep := KeepLists(lines, uniqueLength, keepSmallUniques);
      WrittenAt(lines[..j], lines[j], keep, Group(lines).value.headersByQuery) <==>
        exists i :: 0 <= i < |lines| && lines[i].Alignment? && CurrentQuery(lines[..i]) == lines[j].queryName
          && UniqueAt(lines[..i], keep) && HeaderInForce(lines[..i]) == lines[j]
  {
    var q := lines[j].queryName;
    assert q in HeaderQueries(lines);
    KeepListOf(lines, uniqueLength, keepSmallUniques, q);
    HeaderListOf(lines, q);
    var keep := KeepLists(lines, uniqueLength, keepSmallUniques);
    var headers := Group(lines).value.headersByQuery;
    assert |HeadersOf(lines, q)| == |IntervalsOf(lines, q)|;
    if WrittenAt(lines[..j], lines[j], keep, headers) {
      UniqueFromNeeded(lines, keep[q], q, lines[j]);
    }
    if exists i :: 0 <= i < |lines| && lines[i].Alignment? && CurrentQuery(lines[..i]) == q
         && UniqueAt(lines[..i], keep) && HeaderInForce(lines[..i]) == lines[j]
    {
      var i :| 0 <= i < |lines| && lines[i].Alignment? && CurrentQuery(lines[..i]) == q
        && UniqueAt(lines[..i], keep) && HeaderInForce(lines[..i]) == lines[j];
      NeededFromUnique(lines, keep[q], q, lines[j], i);
    }
  }
}

=== FILE: plane_sweep.dfy ===
/**
 * `summarize_planesweep`: the unique-anchor filter. A plane sweep over the
 * query intervals of one query's alignments records the stretches covered by
 * exactly one alignment; an alignment is kept when enough of that uniquely
 * covered length lies inside it.
 */
module PlaneSweep {
  import opened Events
  import opened BinarySearch

  /** An alignment's query interval as `(query_min, query_max)`. */
  type Interval = (int, int)

  function Abs(x: int): nat {
    if x < 0 then -x else x
  }

  /** Every interval is in order, as the grouping pass produces them. */
  ghost predicate WellFormed(lines: seq<Interval>) {
    forall k :: 0 <= k < |lines| ==> lines[k].0 <= lines[k].1
  }

  ghost predicate StrictlyIncreasing(s: seq<nat>) {
    forall i, j :: 0 <= i < j < |s| ==> s[i] < s[j]
  }

  /** One start event at `query_min` followed by one stop event at `query_max`, per line. */
  function StartsAndStops(lines: seq<Interval>): (es: seq<Event>)
    ensures |es| == 2 * |lines|
  {
    if |lines| == 0 then []
    else [Event(lines[0].0, Start), Event(lines[0].1, Stop)] + StartsAndStops(lines[1..])
  }

  /** State of the sweep loop: running coverage, last position and the recorded intervals. */
  datatype SweepState = SweepState(coverage: int, lastPosition: int, lefts: seq<int>, rights: seq<int>)

  /**
   * One iteration: when exactly one alignment covers the stretch since the
   * previous event, that stretch is recorded; then the coverage is updated.
   */
  function Step(st: SweepState, e: Event): SweepState {
    var recorded :=
      if st.coverage == 1 then st.(lefts := st.lefts + [st.lastPosition], rights := st.rights + [e.pos])
      else st;
    recorded.(coverage := st.coverage + Delta(e), lastPosition := e.pos)
  }

  /** The sweep loop over a prefix of the sorted events, starting from coverage 0 at position -1. */
  function Sweep(es: seq<Event>): (st: SweepState)
    ensures |st.lefts| == |st.rights|
  {
    if |es| == 0 then SweepState(0, -1, [], [])
    else Step(Sweep(es[..|es| - 1]), es[|es| - 1])
  }

  /** Number of events before which the running coverage is exactly one. */
  function CoverageOneCount(es: seq<Event>): nat {
    if |es| == 0 then 0
    else CoverageOneCount(es[..|es| - 1]) + (if Coverage(es[..|es| - 1]) == 1 then 1 else 0)
  }

  /** The recorded intervals are in order, each non-empty-or-point, and do not overlap. */
  ghost predicate OrderedIntervals(lefts: seq<int>, rights: seq<int>) {
    && |lefts| == |rights|
    && (forall i :: 0 <= i < |lefts| ==> lefts[i] <= rights[i])
    && (forall i :: 0 < i < |lefts| ==> rights[i - 1] <= lefts[i])
  }

  /** A prefix of sorted events is sorted. */
  lemma SortedPrefix(es: seq<Event>, n: nat)
    requires SortedByPosition(es)
    requires n <= |es|
    ensures SortedByPosition(es[..n])
  {
    forall i, j | 0 <= i < j < n ensures es[..n][i].pos <= es[..n][j].pos {
      assert es[..n][i] == es[i] && es[..n][j] == es[j];
    }
  }

  /**
   * The sweep keeps its coverage equal to starts minus stops, records exactly
   * one interval per event met at coverage one, and remembers the position of
   * the last event.
   */
  lemma {:induction false} SweepCounts(es: seq<Event>)
    ensures Sweep(es).coverage == Coverage(es)
    ensures |Sweep(es).lefts| == CoverageOneCount(es)
    ensures |es| > 0 ==> Sweep(es).lastPosition == es[|es| - 1].pos
  {
    var n := |es|;
    if n > 0 {
      SweepCounts(es[..n - 1]);
      assert es[..n] == es;
      CoverageSnoc(es, n);
    }
  }

  /**
   * Which intervals the sweep records: when the running coverage before event
   * `j` is exactly one, the stretch from the previous event's position to
   * event `j`'s position is recorded, at the index counting the earlier such
   * events.
   */
  lemma {:induction false} SweepRecordsAt(es: seq<Event>)
    ensures forall j :: 0 <= j < |es| && Coverage(es[..j]) == 1 ==>
      && 0 < j
      && CoverageOneCount(es[..j]) < |Sweep(es).lefts|
      && Sweep(es).lefts[CoverageOneCount(es[..j])] == es[j - 1].pos
      && Sweep(es).rights[CoverageOneCount(es[..j])] == es[j].pos
  {
    var n := |es|;
    if n > 0 {
      var prev := es[..n - 1];
      SweepRecordsAt(prev);
      SweepCounts(prev);
      var p := Sweep(prev);
      var st := Sweep(es);
      assert st == Step(p, es[n - 1]);
      assert st.lefts[..|p.lefts|] == p.lefts && st.rights[..|p.rights|] == p.rights;
      forall j | 0 <= j < n && Coverage(es[..j]) == 1
        ensures && 0 < j
                && CoverageOneCount(es[..j]) < |st.lefts|
                && st.lefts[CoverageOneCount(es[..j])] == es[j - 1].pos
                && st.rights[CoverageOneCount(es[..j])] == es[j].pos
      {
        if j < n - 1 {
          assert es[..j] == prev[..j] && es[j] == prev[j];
          assert 0 < j && es[j - 1] == prev[j - 1];
          var c := CoverageOneCount(es[..j]);
          assert st.lefts[c] == st.lefts[..|p.lefts|][c];
          assert st.rights[c] == st.rights[..|p.rights|][c];
        } else {
          assert es[..j] == prev;
          assert j > 0;
        }
      }
    }
  }

  /** Interval `i` of the sweep was recorded at some event `j` met at coverage one. */
  ghost predicate RecordedAtEvent(es: seq<Event>, i: nat) {
    exists j :: 0 <= j < |es| && Coverage(es[..j]) == 1 && CoverageOneCount(es[..j]) == i
  }

  /** Every recorded interval comes from an event met at coverage one. */
  lemma {:induction false} SweepRecordsOnly(es: seq<Event>)
    ensures forall i :: 0 <= i < |Sweep(es).lefts| ==> RecordedAtEvent(es, i)
  {
    var n := |es|;
    if n > 0 {
      var prev := es[..n - 1];
      SweepRecordsOnly(prev);
      SweepCounts(prev);
      var p := Sweep(prev);
      var st := Sweep(es);
      assert st == Step(p, es[n - 1]);
      forall i | 0 <= i < |st.lefts|
        ensures RecordedAtEvent(es, i)
      {
        if i < |p.lefts| {
          assert RecordedAtEvent(prev, i);
          var j :| 0 <= j < n - 1 && Coverage(prev[..j]) == 1 && CoverageOneCount(prev[..j]) == i;
          assert es[..j] == prev[..j];
        } else {
          assert es[..n - 1] == prev;
        }
      }
    }
  }

  /** Appending an interval that starts at or after the last right end keeps the intervals ordered. */
  lemma AppendOrdered(lefts: seq<int>, rights: seq<int>, l: int, r: int)
    requires OrderedIntervals(lefts, rights)
    requires l <= r
    requires |lefts| > 0 ==> rights[|lefts| - 1] <= l
    ensures OrderedIntervals(lefts + [l], rights + [r])
  {
    var ls, rs := lefts + [l], rights + [r];
    forall i | 0 <= i < |ls| ensures ls[i] <= rs[i] {
      if i < |lefts| {
        assert ls[i] == lefts[i] && rs[i] == rights[i];
      }
    }
    forall i | 0 < i < |ls| ensures rs[i - 1] <= ls[i] {
      if i < |lefts| {
        assert ls[i] == lefts[i] && rs[i - 1] == rights[i - 1];
      }
    }
  }

  /**
   * One step of the sweep keeps its recorded intervals ordered, ending at or
   * before the last position and starting at or after `first`, provided the
   * event does not lie before the previous one.
   */
  lemma StepOrdered(p: SweepState, e: Event, first: int)
    requires OrderedIntervals(p.lefts, p.rights)
    requires |p.lefts| > 0 ==> p.rights[|p.lefts| - 1] <= p.lastPosition
    requires forall i :: 0 <= i < |p.lefts| ==> first <= p.lefts[i]
    requires p.coverage == 1 || |p.lefts| > 0 ==> p.lastPosition <= e.pos
    requires p.coverage == 1 ==> first <= p.lastPosition
    ensures OrderedIntervals(Step(p, e).lefts, Step(p, e).rights)
    ensures |Step(p, e).lefts| > 0 ==> Step(p, e).rights[|Step(p, e).lefts| - 1] <= Step(p, e).lastPosition
    ensures forall i :: 0 <= i < |Step(p, e).lefts| ==> first <= Step(p, e).lefts[i]
  {
    var st := Step(p, e);
    if p.coverage == 1 {
      AppendOrdered(p.lefts, p.rights, p.lastPosition, e.pos);
      assert st.lefts == p.lefts + [p.lastPosition] && st.rights == p.rights + [e.pos];
      forall i | 0 <= i < |st.lefts| ensures first <= st.lefts[i] {
        if i < |p.lefts| {
          assert st.lefts[i] == p.lefts[i];
        }
      }
    } else {
      assert st.lefts == p.lefts && st.rights == p.rights;
    }
  }

  /**
   * On position-sorted events the recorded intervals are ordered, disjoint
   * and lie between the first and the last position seen.
   */
  lemma {:induction false} SweepOrdered(es: seq<Event>)
    requires SortedByPosition(es)
    ensures OrderedIntervals(Sweep(es).lefts, Sweep(es).rights)
    ensures |Sweep(es).lefts| > 0 ==> Sweep(es).rights[|Sweep(es).lefts| - 1] <= Sweep(es).lastPosition
    ensures |es| > 0 ==> forall i :: 0 <= i < |Sweep(es).lefts| ==> es[0].pos <= Sweep(es).lefts[i]
  {
    var n := |es|;
    if n > 0 {
      var prev := es[..n - 1];
      var p := Sweep(prev);
      if n > 1 {
        SortedPrefix(es, n - 1);
        SweepOrdered(prev);
        SweepCounts(prev);
        assert prev[0] == es[0];
        assert p.lastPosition == es[n - 2].pos;
        assert es[0].pos <= es[n - 2].pos <= es[n - 1].pos;
      } else {
        assert p == SweepState(0, -1, [], []);
      }
      StepOrdered(p, es[n - 1], es[0].pos);
      assert Sweep(es) == Step(p, es[n - 1]);
    }
  }

  /** Chained ordered intervals have non-decreasing left ends. */
  lemma {:induction false} OrderedLeftsSorted(lefts: seq<int>, rights: seq<int>)
    requires OrderedIntervals(lefts, rights)
    ensures Sorted(lefts)
    decreases |lefts|
  {
    if |lefts| > 1 {
      var n := |lefts|;
      OrderedLeftsSorted(lefts[..n - 1], rights[..n - 1]);
      forall i, j | 0 <= i < j < n ensures lefts[i] <= lefts[j] {
        if j < n - 1 {
          assert lefts[..n - 1][i] <= lefts[..n - 1][j];
        } else {
          assert lefts[..n - 1][i] <= lefts[..n - 1][n - 2];
          assert lefts[n - 2] <= rights[n - 2] <= lefts[n - 1];
        }
      }
    }
  }

  /** Every line contributes one start and one stop, so the coverage returns to zero. */
  lemma {:induction false} StartsAndStopsBalanced(lines: seq<Interval>)
    ensures Coverage(StartsAndStops(lines)) == 0
  {
    if |lines| > 0 {
      var head := [Event(lines[0].0, Start), Event(lines[0].1, Stop)];
      StartsAndStopsBalanced(lines[1..]);
      CoverageAppend(head, StartsAndStops(lines[1..]));
      assert head[1..] == [Event(lines[0].1, Stop)];
    }
  }

  /** Each line's start and stop events are among the events. */
  lemma {:induction false} StartsAndStopsContain(lines: seq<Interval>)
    ensures forall k :: 0 <= k < |lines| ==> Event(lines[k].0, Start) in StartsAndStops(lines)
    ensures forall k :: 0 <= k < |lines| ==> Event(lines[k].1, Stop) in StartsAndStops(lines)
  {
    if |lines| > 0 {
      StartsAndStopsContain(lines[1..]);
      forall k | 0 < k < |lines| ensures lines[1..][k - 1] == lines[k] {
      }
    }
  }

  /**
   * Among the events at the largest position, the last one is a stop: each
   * line's stop comes after its start and is at least as far.
   */
  lemma {:induction false} LastAtMaximumIsStop(lines: seq<Interval>)
    requires WellFormed(lines)
    requires |lines| > 0
    ensures LastAtMaximum(StartsAndStops(lines)).change == Stop
  {
    var s0 := Event(lines[0].0, Start);
    var e0 := Event(lines[0].1, Stop);
    var rest := StartsAndStops(lines[1..]);
    var ss := StartsAndStops(lines);
    assert ss == [s0, e0] + rest;
    assert ss[1..] == [e0] + rest;
    if |lines| == 1 {
      assert rest == [];
    } else {
      assert WellFormed(lines[1..]) by {
        forall k | 0 <= k < |lines[1..]| ensures lines[1..][k].0 <= lines[1..][k].1 {
          assert lines[1..][k] == lines[k + 1];
        }
      }
      LastAtMaximumIsStop(lines[1..]);
      assert ss[1..][1..] == rest;
    }
  }

  /** The stably sorted events of the lines. */
  function SortedEvents(lines: seq<Interval>): (es: seq<Event>)
    ensures |es| == 2 * |lines|
    ensures multiset(es) == multiset(StartsAndStops(lines))
    ensures SortedByPosition(es)
    ensures Coverage(es) == Coverage(StartsAndStops(lines))
  {
    SortByPosition(StartsAndStops(lines))
  }

  /**
   * With stable ordering the last sorted event is always a stop. An unstable
   * sort could put a point interval's stop before its start.
   */
  lemma LastEventIsStop(lines: seq<Interval>)
    requires WellFormed(lines)
    requires |lines| > 0
    ensures var es := SortedEvents(lines); es[|es| - 1].change == Stop
  {
    var ss := StartsAndStops(lines);
    var es := SortByPosition(ss);
    assert SortedEvents(lines) == es;
    SortLast(ss);
    LastAtMaximumIsStop(lines);
    assert es[|es| - 1] == LastAtMaximum(ss);
  }

  /** The recorded unique intervals of a set of lines. */
  function UniqueIntervals(lines: seq<Interval>): (st: SweepState)
    ensures |st.lefts| == |st.rights|
  {
    Sweep(SortedEvents(lines))
  }

  /**
   * With at least one line, at least one interval is recorded, and the last
   * one runs from the second-to-last to the last event position.
   */
  lemma LastInterval(lines: seq<Interval>)
    requires WellFormed(lines)
    requires |lines| > 0
    ensures var es := SortedEvents(lines);
      var st := UniqueIntervals(lines);
      && |st.lefts| > 0
      && st.lefts[|st.lefts| - 1] == es[|es| - 2].pos
      && st.rights[|st.rights| - 1] == es[|es| - 1].pos
  {
    SortedEventsClose(lines);
    SweepEndsWithInterval(SortedEvents(lines));
  }

  /** The events are balanced and end with a stop, after at least one other event. */
  ghost predicate ClosesWithStop(es: seq<Event>) {
    |es| >= 2 && es[|es| - 1].change == Stop && Coverage(es) == 0
  }

  lemma SortedEventsClose(lines: seq<Interval>)
    requires WellFormed(lines)
    requires |lines| > 0
    ensures ClosesWithStop(SortedEvents(lines))
  {
    LastEventIsStop(lines);
    StartsAndStopsBalanced(lines);
  }

  /**
   * When every start is matched by a stop and the last event is a stop, the
   * sweep closes with an interval from the second-to-last to the last event.
   */
  lemma SweepEndsWithInterval(es: seq<Event>)
    requires ClosesWithStop(es)
    ensures |Sweep(es).lefts| > 0
    ensures Sweep(es).lefts[|Sweep(es).lefts| - 1] == es[|es| - 2].pos
    ensures Sweep(es).rights[|Sweep(es).rights| - 1] == es[|es| - 1].pos
  {
    var m := |es|;
    CoverageSnoc(es, m);
    assert es[..m] == es;
    var prev := es[..m - 1];
    SweepCounts(prev);
    assert Coverage(prev) == 1;
    assert Sweep(prev).lastPosition == es[m - 2].pos;
  }

  /**
   * The search at the line's start never runs past the recorded intervals, so
   * the index read at the exact-match test is always in range.
   */
  lemma SearchInBounds(lines: seq<Interval>, k: nat)
    requires WellFormed(lines)
    requires k < |lines|
    ensures var st := UniqueIntervals(lines);
      Search(lines[k].0, st.lefts, 0, |st.lefts|) < |st.lefts|
  {
    StartAtMostLastLeft(lines, k);
    SweepOrdered(SortedEvents(lines));
    LeftBelowLastFound(UniqueIntervals(lines).lefts, UniqueIntervals(lines).rights, lines[k].0);
  }

  /** Every line's start event is among the sorted events. */
  lemma StartInSortedEvents(lines: seq<Interval>, k: nat)
    requires k < |lines|
    ensures Event(lines[k].0, Start) in SortedEvents(lines)
  {
    StartsAndStopsContain(lines);
    assert Event(lines[k].0, Start) in multiset(SortedEvents(lines));
  }

  /** No line starts after the left end of the last recorded interval. */
  lemma StartAtMostLastLeft(lines: seq<Interval>, k: nat)
    requires WellFormed(lines)
    requires k < |lines|
    ensures var st := UniqueIntervals(lines);
      |st.lefts| > 0 && lines[k].0 <= st.lefts[|st.lefts| - 1]
  {
    var es := SortedEvents(lines);
    LastInterval(lines);
    LastEventIsStop(lines);
    StartInSortedEvents(lines, k);
    StartNotAfterSecondToLast(es, Event(lines[k].0, Start));
  }

  /**
   * When the last sorted event is a stop, every start event is at or before
   * the second-to-last position.
   */
  lemma StartNotAfterSecondToLast(es: seq<Event>, x: Event)
    requires SortedByPosition(es)
    requires |es| >= 2
    requires es[|es| - 1].change == Stop
    requires x in es && x.change == Start
    ensures x.pos <= es[|es| - 2].pos
  {
    var j :| 0 <= j < |es| && es[j] == x;
    assert j != |es| - 1;
    if j < |es| - 2 {
      assert es[j].pos <= es[|es| - 2].pos;
    }
  }

  /** A search for a value not above the last left end stays inside the recorded intervals. */
  lemma LeftBelowLastFound(lefts: seq<int>, rights: seq<int>, q: int)
    requires OrderedIntervals(lefts, rights)
    requires |lefts| > 0
    requires q <= lefts[|lefts| - 1]
    ensures Search(q, lefts, 0, |lefts|) < |lefts|
  {
    OrderedLeftsSorted(lefts, rights);
    if Search(q, lefts, 0, |lefts|) == |lefts| {
      SearchPastEnd(q, lefts, 0, |lefts|);
      assert false;
    }
  }

  /**
   * Summed length of the recorded intervals met by the scan that starts at
   * index `i` and stops at the first interval not lying within `[lo, hi]`.
   */
  function UniqueSum(lefts: seq<int>, rights: seq<int>, i: nat, lo: int, hi: int): int
    requires |lefts| == |rights|
    decreases |lefts| - i
  {
    if i < |lefts| && lefts[i] >= lo && rights[i] <= hi then
      rights[i] - lefts[i] + UniqueSum(lefts, rights, i + 1, lo, hi)
    else 0
  }

  /**
   * The scanning loop of the filter: accumulates the lengths of consecutive
   * recorded intervals from index `start` while they lie within `[lo, hi]`.
   * Returns the sum and the index where the scan stopped.
   */
  method ScanUniqueLength(lefts: seq<int>, rights: seq<int>, start: nat, lo: int, hi: int)
    returns (sum: int, stop: nat)
    requires |lefts| == |rights|
    requires start <= |lefts|
    ensures sum == UniqueSum(lefts, rights, start, lo, hi)
    ensures start <= stop <= |lefts|
    ensures forall j :: start <= j < stop ==> lo <= lefts[j] && rights[j] <= hi
    ensures stop == |lefts| || lefts[stop] < lo || rights[stop] > hi
  {
    sum := 0;
    stop := start;
    while stop < |lefts| && lefts[stop] >= lo && rights[stop] <= hi
      invariant start <= stop <= |lefts|
      invariant sum + UniqueSum(lefts, rights, stop, lo, hi) == UniqueSum(lefts, rights, start, lo, hi)
      invariant forall j :: start <= j < stop ==> lo <= lefts[j] && rights[j] <= hi
      decreases |lefts| - stop
    {
      sum := sum + rights[stop] - lefts[stop];
      stop := stop + 1;
    }
  }

  /**
   * The uniquely covered length credited to an alignment is never negative
   * and never exceeds the alignment's own length, because the recorded
   * intervals are ordered and disjoint.
   */
  lemma {:induction false} UniqueSumBounds(lefts: seq<int>, rights: seq<int>, i: nat, lo: int, hi: int)
    requires OrderedIntervals(lefts, rights)
    requires lo <= hi
    ensures 0 <= UniqueSum(lefts, rights, i, lo, hi)
    ensures i < |lefts| && lefts[i] >= lo ==>
      UniqueSum(lefts, rights, i, lo, hi) == 0 || UniqueSum(lefts, rights, i, lo, hi) <= hi - lefts[i]
    ensures UniqueSum(lefts, rights, i, lo, hi) <= hi - lo
    decreases |lefts| - i
  {
    if i < |lefts| && lefts[i] >= lo && rights[i] <= hi {
      UniqueSumBounds(lefts, rights, i + 1, lo, hi);
      if i + 1 < |lefts| {
        assert rights[i] <= lefts[i + 1];
      }
    }
  }

  /**
   * The decision for one alignment `(lo, hi)`: search the recorded intervals
   * for `lo`, then keep the alignment when the unique length found by the scan
   * reaches the threshold, or, with `keepSmallUniques`, when the interval at
   * the search index is exactly the alignment. The index test `i < |lefts|`
   * stands for the source's unguarded read, which `SearchInBounds` shows never
   * goes out of range.
   */
  predicate KeepsLine(line: Interval, lefts: seq<int>, rights: seq<int>, uniqueLengthRequired: int, keepSmallUniques: bool)
    requires |lefts| == |rights|
  {
    var i := Search(line.0, lefts, 0, |lefts|);
    var exactMatch := i < |lefts| && lefts[i] == line.0 && rights[i] == line.1;
    UniqueSum(lefts, rights, i, line.0, line.1) >= uniqueLengthRequired
    || (keepSmallUniques && exactMatch)
  }

  /** The indices from `k` onward of the lines the decision keeps, in increasing order. */
  function KeptFrom(lines: seq<Interval>, lefts: seq<int>, rights: seq<int>, uniqueLengthRequired: int,
                    keepSmallUniques: bool, k: nat): (r: seq<nat>)
    requires |lefts| == |rights|
    requires k <= |lines|
    ensures forall i :: 0 <= i < |r| ==> k <= r[i] < |lines|
    ensures StrictlyIncreasing(r)
    ensures forall x :: k <= x < |lines| ==>
      (x in r <==> KeepsLine(lines[x], lefts, rights, uniqueLengthRequired, keepSmallUniques))
    decreases |lines| - k
  {
    if k == |lines| then []
    else
      var rest := KeptFrom(lines, lefts, rights, uniqueLengthRequired, keepSmallUniques, k + 1);
      if KeepsLine(lines[k], lefts, rights, uniqueLengthRequired, keepSmallUniques) then [k] + rest else rest
  }

  /**
   * `summarize_planesweep`: the indices of the alignments of one query to
   * keep. No alignment gives nothing; a single alignment is kept when small
   * uniques are kept or it is long enough; otherwise the sweep decides.
   */
  function Summarize(lines: seq<Interval>, uniqueLengthRequired: int, keepSmallUniques: bool): (r: seq<nat>)
    ensures |lines| == 0 ==> r == []
    ensures |lines| == 1 ==>
      (r == [0] <==> keepSmallUniques || Abs(lines[0].1 - lines[0].0) >= uniqueLengthRequired)
    ensures |lines| == 1 ==> (r == [] <==> !keepSmallUniques && Abs(lines[0].1 - lines[0].0) < uniqueLengthRequired)
    ensures StrictlyIncreasing(r)
    ensures forall i :: 0 <= i < |r| ==> r[i] < |lines|
    ensures |lines| >= 2 ==> forall k :: 0 <= k < |lines| ==>
      (k in r <==> KeepsLine(lines[k], UniqueIntervals(lines).lefts, UniqueIntervals(lines).rights,
                             uniqueLengthRequired, keepSmallUniques))
  {
    if |lines| == 0 then []
    else if |lines| == 1 then
      if keepSmallUniques || Abs(lines[0].1 - lines[0].0) >= uniqueLengthRequired then [0] else []
    else
      var st := UniqueIntervals(lines);
      KeptFrom(lines, st.lefts, st.rights, uniqueLengthRequired, keepSmallUniques, 0)
  }

  /** With two or more lines at least one interval of coverage one is recorded. */
  lemma SweepRecordsSomething(lines: seq<Interval>)
    requires WellFormed(lines)
    requires |lines| >= 2
    ensures |UniqueIntervals(lines).lefts| >= 1
    ensures |UniqueIntervals(lines).lefts| == CoverageOneCount(SortedEvents(lines))
  {
    LastInterval(lines);
    SweepCounts(SortedEvents(lines));
  }

  /**
   * The recorded intervals are ordered and disjoint, each runs left to right,
   * and their left ends are sorted, as the binary search needs.
   */
  lemma UniqueIntervalsOrdered(lines: seq<Interval>)
    ensures OrderedIntervals(UniqueIntervals(lines).lefts, UniqueIntervals(lines).rights)
    ensures Sorted(UniqueIntervals(lines).lefts)
  {
    var st := UniqueIntervals(lines);
    SweepOrdered(SortedEvents(lines));
    OrderedLeftsSorted(st.lefts, st.rights);
  }

  /**
   * An alignment shorter than the threshold survives the sweep only as an
   * exact unique interval, and only when small uniques are kept.
   */
  lemma ShortAlignmentKeptOnlyIfExact(lines: seq<Interval>, uniqueLengthRequired: int, keepSmallUniques: bool, k: nat)
    requires WellFormed(lines)
    requires |lines| >= 2
    requires k < |lines|
    requires lines[k].1 - lines[k].0 < uniqueLengthRequired
    requires k in Summarize(lines, uniqueLengthRequired, keepSmallUniques)
    ensures keepSmallUniques
    ensures exists i :: (0 <= i < |UniqueIntervals(lines).lefts|
      && UniqueIntervals(lines).lefts[i] == lines[k].0 && UniqueIntervals(lines).rights[i] == lines[k].1)
  {
    var st := UniqueIntervals(lines);
    assert KeepsLine(lines[k], st.lefts, st.rights, uniqueLengthRequired, keepSmallUniques);
    UniqueIntervalsOrdered(lines);
    ShortKeptIsExact(lines[k], st.lefts, st.rights, uniqueLengthRequired, keepSmallUniques);
  }

  lemma ShortKeptIsExact(line: Interval, lefts: seq<int>, rights: seq<int>, uniqueLengthRequired: int, keepSmallUniques: bool)
    requires OrderedIntervals(lefts, rights)
    requires line.0 <= line.1 && line.1 - line.0 < uniqueLengthRequired
    requires KeepsLine(line, lefts, rights, uniqueLengthRequired, keepSmallUniques)
    ensures keepSmallUniques
    ensures exists i :: 0 <= i < |lefts| && lefts[i] == line.0 && rights[i] == line.1
  {
    var i := Search(line.0, lefts, 0, |lefts|);
    UniqueSumBounds(lefts, rights, i, line.0, line.1);
  }
}

=== FILE: wrappers.dfy ===
/** Failure-compatible wrappers shared by the modules of the model. */
module Wrappers {

  /** An optional value; Python's `None` return is `None` here. */
  datatype Option<+T> = None | Some(value: T)

  /** A computation that either yields a value or raises an exception. */
  datatype Result<+T, +E> = Ok(value: T) | Err(error: E) {
    predicate IsFailure() {
      Err?
    }

    function PropagateFailure<U>(): Result<U, E>
      requires Err?
    {
      Err(error)
    }

    function Extract(): T
      requires Ok?
    {
      value
    }
  }
}
